=== FILE: README.md ===
# Inventario CESFAM — a Dafny model of the stock and lifecycle core

This project models the core of a Laravel inventory application: products, the stock movements
recorded against them, and the lifecycle states a product moves through. The model covers:

- the `ProductoEstado` state machine: tokens, per-state policies, the transition table and the
  per-context availability rules;
- the `TipoMovimiento` enum;
- `Movimiento::registrar`, which checks the amount against the product's stock as held in
  memory, then creates the movement and moves the stock as two successive writes;
- the product model's guarded mutations, `actualizarStock` and `cambiarEstado`;
- the availability predicates, and the `numero_inventario` accessor pair (stored upper-cased,
  and a generated `INV-<year>-<nnnn>` code when the stored value is falsy);
- the inventory service: it turns a signed adjustment into a typed, positive movement, and it
  builds the stock report;
- the movement endpoints `store` and `destroy`;
- the decision logic of the product endpoints `store`, `update`, `cambiarEstado`, `destroy`,
  `restore` and the stock alert of `show`.

Everything is pure. A persisted state is an `Almacen` value: the products by id plus the movement
log. Each transactional endpoint is one function from one state to the next. A thrown exception
is a `Failure` carrying the exception class and its cause. The ledger invariant `Libro.Cuadra`
ties the two tables together: a product's stock equals its opening stock plus the signed amounts
of its live movements. Which operations keep that invariant and which break it is the main
subject of the lemmas.

Seven places in the code do not do what they evidently mean; they are listed under Findings.
For each one, the model holds a member that follows the code as written (its name ends in
`ComoEscrito`, or it takes the defective name or argument as a parameter) and the corrected
member. A lemma relates the two. The rest of the model builds on the corrected members.

Modules, one per source unit:

- `Base`: `Option`, `Result`, error causes;
- `Texto`: the PHP string behaviour that is needed: emptiness, `strtoupper`, decimal printing,
  `padLeft`;
- `Estados`: `ProductoEstado`;
- `Tipos`: `TipoMovimiento`;
- `Productos`: the `Producto` model;
- `Movimientos`: the `Movimiento` model;
- `Libro`: the stored state and the ledger invariant;
- `Inventario`: `InventarioService`;
- `MovimientoControl`: `MovimientoController`;
- `ProductoControl`: `ProductoController`.

## Model

| member | source | states |
|---|---|---|
| Estados.MovimientosImplicanModificaciones | app/Enums/ProductoEstado.php:54-70 | every state that allows movements also allows modifications; MANTENIMIENTO and PENDIENTE_REVISION are exactly the states that allow modifications but not movements; a state is final iff it forbids modifications |
| Estados.PermiteMovimientos | app/Enums/ProductoEstado.php:54-60 | exactly DISPONIBLE, EN_USO and RESERVADO admit stock movements |
| Estados.PermiteModificaciones | app/Enums/ProductoEstado.php:62-65 | every state that admits movements admits modifications |
| Estados.EsEstadoFinal | app/Enums/ProductoEstado.php:67-70 | a state is final iff it no longer admits modifications |
| Estados.TransicionesPermitidas | app/Enums/ProductoEstado.php:73-83 | no state lists itself; no state leads into PENDIENTE_REVISION; only BAJA has an empty row; every other state reaches BAJA in one step, and every state other than BAJA and DISPONIBLE reaches DISPONIBLE in one step; rows have no duplicates |
| Estados.PuedeTransicionarA | app/Enums/ProductoEstado.php:85-88 | a permitted transition never stays in the same state and never enters PENDIENTE_REVISION |
| Estados.PropiedadesDeTransicion | app/Enums/ProductoEstado.php:85-88 | `puedeTransicionarA` is irreflexive, never targets PENDIENTE_REVISION, is always false from BAJA, and is true into BAJA from every other state |
| Estados.CaminoBajaAlFinal | app/Enums/ProductoEstado.php:73-88 | on any run of legal transitions, BAJA can only be the last state and PENDIENTE_REVISION only the first |
| Estados.EsDisponiblePara | app/Enums/ProductoEstado.php:91-100 | per context: "venta" means DISPONIBLE or RESERVADO; "prestamo" and any unknown context mean exactly DISPONIBLE; "mantenimiento" means neither BAJA nor MANTENIMIENTO; "reporte" means not final. No context accepts BAJA, and every context accepts DISPONIBLE |
| Estados.ValoresParticion | app/Enums/ProductoEstado.php:109-125 | the active and inactive token lists are disjoint and together make up `values()`; the inactive ones are exactly BAJA and MANTENIMIENTO, and no active state is final |
| Estados.Values | app/Enums/ProductoEstado.php:128-131 | six pairwise distinct tokens, one for every case |
| Estados.TryFrom | app/Enums/ProductoEstado.php:7-14 | it finds a state iff the string is one of `values()`, and the state found has that token; otherwise no state has it |
| Estados.TryFromValue | app/Enums/ProductoEstado.php:7-14 | parsing a state's own token gives that state back, so the tokens are pairwise distinct |
| Estados.From | app/Http/Controllers/ProductoController.php:126 | `ProductoEstado::from` succeeds iff the token is known, and gives the state with that token; otherwise it raises ValueError |
| Estados.FromValue | app/Enums/ProductoEstado.php:133-136 | succeeds iff the token is known, and gives the state with that token; otherwise it raises InvalidArgumentException (invalid state) |
| Tipos.Value | app/Enums/TipoMovimiento.php:5-8 | every movement type's token is "entrada" or "salida" |
| Tipos.Icono | app/Enums/TipoMovimiento.php:10-16 | a one-character arrow, which is the up arrow iff the type is ENTRADA |
| Tipos.TryFrom | app/Enums/TipoMovimiento.php:5-8 | it finds a type iff the token is "entrada" or "salida", and the type found has that token |
| Tipos.From | app/Enums/TipoMovimiento.php:5-8 | the built-in `BackedEnum::from` succeeds iff the token is "entrada" or "salida", and gives the type with that token; otherwise it raises ValueError |
| Tipos.FromValue | app/Enums/TipoMovimiento.php:5-8 | parsing a type's token gives that type back; the two tokens differ; there is no third type |
| Texto.AMayusculas | app/Models/producto.php:41 | `strtoupper` keeps the length, upper-cases every character position by position, and leaves no lower-case ASCII letter |
| Texto.AMayusculasIdempotente | app/Models/producto.php:41 | upper-casing twice is the same as upper-casing once |
| Texto.Decimal | app/Models/producto.php:40 | the decimal text of a number is non-empty, all digits, and has no leading zero unless the number is 0 |
| Texto.ValorDecimalDeDecimal | app/Models/producto.php:40 | reading back the decimal text of n gives n |
| Texto.RellenarCeros | app/Models/producto.php:40 | `padLeft(w, '0')` never truncates: the result has at least w characters, ends with the input, and adds only zeros in front |
| Texto.RellenarConservaValor | app/Models/producto.php:40 | zero-padding a number's decimal text keeps its value |
| Productos.ConNumeroInventario | app/Models/producto.php:41 | the mutator stores the value upper-cased: same length, each character the input's character upper-cased, no lower-case letter left; no other attribute changes |
| Productos.ConNumeroInventarioIdempotente | app/Models/producto.php:41 | writing back the stored code leaves the product unchanged |
| Productos.CodigoGenerado | app/Models/producto.php:40 | a generated code starts with "INV-" and has at least 13 characters |
| Productos.CodigoGeneradoInyectivo | app/Models/producto.php:40 | within one year, equal generated codes come from equal numbers |
| Productos.NumeroInventario | app/Models/producto.php:37-43 | a truthy stored value is returned as it is; a falsy one is replaced by the code for the product's id, or for count+1 when the product has no id; the result is never falsy |
| Productos.NumerosGeneradosDistintos | app/Models/producto.php:40 | two products with different ids and no stored code read back different codes in the same year |
| Productos.ActualizarStock | app/Models/producto.php:81-96 | the state check comes first, and forcing skips it; a negative amount is refused even when forced; on success only the stock changes, to the new amount |
| Productos.ActualizarStockIdempotente | app/Models/producto.php:95 | the override sets rather than adds: repeating it changes nothing, and the previous stock does not matter |
| Productos.CambiarEstado | app/Models/producto.php:121-130 | succeeds iff the transition is allowed, and otherwise raises RuntimeException; on success only the state changes, to the new state |
| Productos.CambiarEstadoNoRepetible | app/Models/producto.php:121-130 | a successful change cannot be repeated with the same target, and a product in BAJA never changes state |
| Productos.EstaDisponible | app/Models/producto.php:102-105 | an available product admits movements and is not decommissioned |
| Productos.EstaDisponibleIgnoraCantidad | app/Models/producto.php:102-105 | availability depends on the state only, and agrees with the state's "prestamo" policy |
| Productos.EstaDisponiblePara | app/Models/producto.php:110-120 | "venta" means DISPONIBLE or RESERVADO; "movimiento" means the state allows movements; anything else means `estaDisponible`; whenever the product is available, movements are allowed |
| Productos.DisponibilidadCoincide | app/Models/producto.php:110-120 | outside "movimiento", "mantenimiento" and "reporte", the product's policy and the state's policy agree |
| Movimientos.Registrar | app/Models/movimiento.php:72-99 | a non-positive amount raises InvalidArgumentException, checked first; an outward movement larger than the stock raises RuntimeException; otherwise the movement records exactly the given product, type, amount and reason, and the stock rises or falls by the amount; stock that starts non-negative stays non-negative |
| Movimientos.RegistrarIgnoraEstado | app/Models/movimiento.php:72-99 | the outcome does not depend on the product's state: changing the state beforehand changes nothing but the state |
| Movimientos.RegistrarMovimiento | app/Models/producto.php:76-79 | the intended method: an unknown type token raises ValueError; on success the movement's type has the given token and its amount is the given positive amount |
| Movimientos.RegistrarMovimientoValue | app/Models/producto.php:76-79 | registering by a type's own token is exactly `registrar` with that type |
| Movimientos.RegistrarMovimientoComoEscrito | app/Models/producto.php:78 | as written, every call fails with an engine Error, because `TipoMovimiento` is not imported into the models' namespace |
| Movimientos.RegistrarMovimientoComoEscritoNuncaRegistra | app/Models/producto.php:78 | for every positive inward amount, the as-written method fails while the intended one succeeds and raises the stock by that amount |
| Movimientos.TipoFormateado | app/Models/movimiento.php:104-109 | the text is "Entrada de inventario" iff the type is ENTRADA, and "Salida de inventario" otherwise |
| Libro.SaldoSinMovimientos | app/Models/movimiento.php:86-91 | a product that no movement refers to has a zero balance |
| Libro.SaldoAgregar | app/Models/movimiento.php:86-96 | appending a movement adds its contribution to the product's balance |
| Libro.SaldoAnular | app/Http/Controllers/MovimientoController.php:70 | soft-deleting one movement withdraws exactly its contribution from the balance |
| Libro.RegistrarEn | app/Models/movimiento.php:86-98 | succeeds under exactly the conditions of `registrar`; appends exactly the requested movement and keeps the log before it; moves that product's stock by the movement's signed amount; leaves every other product untouched |
| Libro.RegistrarEnCuadra | app/Models/movimiento.php:86-96 | recording a movement keeps the schema invariants and keeps the ledger balanced |
| Libro.ActualizarStockEn | app/Models/producto.php:95 | the override succeeds iff `actualizarStock` does, rewrites one product's stock, and leaves the movement log alone |
| Libro.ActualizarStockDescuadra | app/Models/producto.php:81-96 | after the override the ledger stays balanced iff the stock did not actually change |
| Inventario.TipoPara | app/Services/InventarioService.php:20 | the type is ENTRADA iff the delta is positive |
| Inventario.Magnitud | app/Services/InventarioService.php:21 | `abs`: the amount is the delta or its negation, and never negative |
| Inventario.DerivacionInversa | app/Services/InventarioService.php:20-21 | the signed effect of the derived type and amount is the delta itself; the amount is positive iff the delta is non-zero |
| Inventario.AjustarInventario | app/Services/InventarioService.php:13-40 | the intended adjustment. A zero delta is refused as a non-positive amount, and a decrease larger than the stock is refused for lack of stock. It succeeds iff the delta is positive, or negative and covered by the stock. The movement records the derived type, the positive magnitude and the given reason. The stock moves by exactly the delta, and nothing else about the product changes |
| Inventario.LlamarRegistrar | app/Services/InventarioService.php:23-29 | a named argument that `registrar` does not declare makes the call fail with an engine Error before anything runs; otherwise the call is `registrar` itself |
| Inventario.AjustarConReescritura | app/Services/InventarioService.php:19-37 | the service's transaction succeeds exactly when its call to `registrar` does, and records that call's movement |
| Inventario.AjustarInventarioComoEscrito | app/Services/InventarioService.php:23-29 | as written, every adjustment fails with an engine Error (unknown named parameter `responsable`) |
| Inventario.AjustarInventarioComoEscritoNuncaAjusta | app/Services/InventarioService.php:23-29 | for every positive delta, the as-written adjustment fails while the intended one succeeds and raises the stock by the delta |
| Inventario.ReescrituraDuplica | app/Services/InventarioService.php:32-37 | with the unknown argument dropped, the transaction accepts exactly what the intended adjustment accepts, but the second write leaves the stock at twice the delta above the start instead of once |
| Inventario.LlamarAjuste | app/Http/Controllers/ProductoController.php:177 | calling the service's adjustment by name, which PHP matches without regard to ASCII case: a name equal to `ajustarInventario` up to case runs the adjustment; any other name fails with an engine Error |
| Inventario.Vigentes | app/Services/InventarioService.php:48-54 | the report sees exactly the live products: each live product appears as often as it is stored, and no soft-deleted or foreign product appears |
| Inventario.GenerarInformeStock | app/Services/InventarioService.php:44-57 | over the live products: `total_productos` is their number, `stock_total` the sum of their stock, `productos_bajo_stock` the number with fewer than 5 units (never more than the total); a state's token is a key of the breakdown iff that state has live products, and its entry holds that state's count and units |
| Inventario.ConteosPorEstado | app/Services/InventarioService.php:51-54 | every product is in exactly one state, so the per-state counts add up to the product count and the per-state units add up to the stock total |
| Inventario.InformeCuadra | app/Services/InventarioService.php:47-55 | the per-state breakdown of the report adds up to `total_productos` and to `stock_total` |
| MovimientoControl.Identico | app/Http/Controllers/MovimientoController.php:66 | PHP `===` is true iff the values have the same type and the same value; an enum case is never identical to a string |
| MovimientoControl.Store | app/Http/Controllers/MovimientoController.php:34-53 | the intended endpoint: a soft-deleted product is not found (404); otherwise it fails (validation) iff the request is invalid; otherwise it appends one movement with the requested type, amount and reason, and moves only that product's stock up for "entrada" and down for "salida", with no stock check |
| MovimientoControl.StoreComoEscrito | app/Http/Controllers/MovimientoController.php:34 | as written, every call fails: a soft-deleted product is not found, and for a live one the container cannot build the unimported `Request` parameter |
| MovimientoControl.StoreComoEscritoNuncaRegistra | app/Http/Controllers/MovimientoController.php:34 | for every valid request on a live product, the as-written endpoint fails while the intended one appends a movement |
| MovimientoControl.StoreFrenteARegistrar | app/Http/Controllers/MovimientoController.php:42-53 | for a live product: whenever `registrar` accepts, `store` has the same effect; an outward movement larger than the stock is refused by `registrar` but accepted by `store`, leaving negative stock |
| MovimientoControl.StoreCuadra | app/Http/Controllers/MovimientoController.php:42-53 | `store` keeps the schema invariants and keeps the ledger balanced |
| MovimientoControl.Revertir | app/Http/Controllers/MovimientoController.php:63-71 | a reversal soft-deletes exactly the given movement, leaves every other movement as it was, and moves only that movement's product's stock by the movement's amount |
| MovimientoControl.Destroy | app/Http/Controllers/MovimientoController.php:59-74 | the intended reversal: the product's stock loses the movement's signed effect; only that product and that movement change |
| MovimientoControl.DestroyComoEscrito | app/Http/Controllers/MovimientoController.php:66-68 | as written, every reversal adds the movement's amount to the stock, whatever the type |
| MovimientoControl.DestroyCuadra | app/Http/Controllers/MovimientoController.php:63-71 | the intended reversal keeps the schema invariants and keeps the ledger balanced |
| MovimientoControl.StoreLuegoDestroy | app/Http/Controllers/MovimientoController.php:42-71 | `store` followed by the intended `destroy` of the new movement gives every product back its stock |
| MovimientoControl.StoreLuegoDestroyComoEscrito | app/Http/Controllers/MovimientoController.php:66-68 | as written, storing an inward movement of n and then destroying it leaves the stock 2n above where it started |
| MovimientoControl.DestroyComoEscritoDescuadra | app/Http/Controllers/MovimientoController.php:66-70 | as written, reverting any live inward movement unbalances the ledger |
| MovimientoControl.DestroyPuedeDejarNegativo | app/Http/Controllers/MovimientoController.php:67 | the reversal of an inward movement has no guard: when the stock is below the amount, the stock goes negative |
| ProductoControl.ProcesarMetadata | app/Http/Controllers/ProductoController.php:239-248 | an empty payload (null, "" or "0") gives null; otherwise the result is the decoder's result |
| ProductoControl.Store | app/Http/Controllers/ProductoController.php:57-71 | a validated request always creates the product in the requested state; the stock is the requested amount, or 0 when absent, and never negative; no inventory code is stored |
| ProductoControl.StoreAbreLibro | app/Http/Controllers/ProductoController.php:57-71 | adding a created product to a balanced stored state keeps it balanced, with the created stock as the product's opening stock; with no stored code it reads back the code generated from its id |
| ProductoControl.Update | app/Http/Controllers/ProductoController.php:123-141 | a soft-deleted product is not found (404), because route binding skips it. For a live product, it succeeds iff the requested state is a legal transition from the current one, and otherwise raises RuntimeException. Resubmitting the current state is always refused. On success the descriptive fields and the state are rewritten, and the stock, serial number and inventory code are never touched |
| ProductoControl.MotivoCambioConservaMotivo | app/Http/Controllers/ProductoController.php:180 | the recorded reason starts with "Cambio de estado: " and ends with the reason the user gave, unaltered |
| ProductoControl.MotivoCambioExcedeColumna | app/Http/Controllers/ProductoController.php:166-180 | a reason that passes validation (at most 255 characters) but is longer than 237 characters yields a recorded reason longer than the 255-character `motivo` column |
| ProductoControl.CambiarEstadoLlamando | app/Http/Controllers/ProductoController.php:162-183 | for any adjustment method name: a soft-deleted product is not found (404). For a live product, an invalid request fails validation, and an illegal transition raises RuntimeException before any adjustment. Without a reason only the state changes. Naming a method the service lacks (up to ASCII case) fails every change that carries a reason |
| ProductoControl.CambiarEstado | app/Http/Controllers/ProductoController.php:162-183 | the intended endpoint. A soft-deleted product is not found (404). For a live product, an invalid request fails validation, and an illegal transition raises RuntimeException. A legal change succeeds iff it carries no reason or carries a positive amount. Without a reason only the state changes. With a reason, the adjustment is an inward movement of the requested amount, and the stock rises by exactly that amount, so it never decreases |
| ProductoControl.CambiarEstadoPorNombre | app/Http/Controllers/ProductoController.php:177-181 | naming the service's `ajustarInventario` in any ASCII case gives exactly the intended endpoint |
| ProductoControl.CambiarEstadoComoEscrito | app/Http/Controllers/ProductoController.php:162-173 | as written, every request fails. A soft-deleted product is not found; for a live one, an invalid request fails validation, and a valid one fails with an engine Error because the unimported `DB` names no class |
| ProductoControl.CambiarEstadoComoEscritoNuncaCambia | app/Http/Controllers/ProductoController.php:173 | for every valid, legal change of a live product without a reason, the as-written endpoint fails, while the intended one succeeds and moves the product to the requested state |
| ProductoControl.AjusteConNombreInexistente | app/Http/Controllers/ProductoController.php:177-181 | calling `ajustarStock` matches the intended endpoint on changes without a reason; every legal change of a live product with a reason and a positive amount fails with an engine Error, where the intended endpoint succeeds |
| ProductoControl.Destroy | app/Http/Controllers/ProductoController.php:200-209 | a soft-deleted product is not found (404), because route binding skips it. A live product's deletion fails iff it is in the final state; otherwise the deletion only sets the soft-delete marker |
| ProductoControl.Restore | app/Http/Controllers/ProductoController.php:227-230 | the lookup includes soft-deleted products; restoring clears the soft-delete marker and changes nothing else |
| ProductoControl.DestroyRestore | app/Http/Controllers/ProductoController.php:200-230 | deleting and then restoring a live product gives it back unchanged; a product moved to BAJA by `cambiarEstado` can no longer be deleted |
| ProductoControl.BorradoNoEncontrado | app/Http/Controllers/ProductoController.php:200-230 | after a successful deletion, deleting again or changing the product's state is not found, while restoring makes it deletable again |
| ProductoControl.StockAlert | app/Http/Controllers/ProductoController.php:107 | the alert is shown iff the stock is below the report's low-stock threshold |
| ProductoControl.BajoStockSonAlertas | app/Http/Controllers/ProductoController.php:107 | the report's low-stock count equals the number of live products whose page shows the stock alert |
| ProductoControl.AlertasComoBajoStock | app/Http/Controllers/ProductoController.php:107 | the stock alert and the report's low-stock test use the same threshold (5) |

## Left out

- Caching is left out: `Cache::remember`, `shouldCache`, the relation cache and `Cache::forget`. The report is modelled as computed fresh every time.
- Pagination, full-text search and query scopes are left out (`scopeBusquedaAvanzada`, `scopePorEstado`, `scopeRecientes`, `activas`). They only select or order rows.
- Views, routes, seeders, migrations, redirects and toast messages are left out. Exception messages are reduced to the exception class and its cause.
- `index`, `create` and `edit` only gather data for views and are left out. So are the category and brand controllers and models.
- Activity logging is left out (the `LogsActivity` trait).
- Concurrency is left out. Each `DB::transaction` is one atomic step, and no locking or interleaving is modelled.
- The presentation helpers `color`, `icono` and `paraSelect` of `ProductoEstado` are left out. `label` is modelled (`Estados.Label`) only because the adjustment reason contains it.
- The legacy `EstadoProducto` enum is left out, because the core does not use it.
- The clock (`now()->format('Y')`) and the table count in the `numero_inventario` accessor are parameters.
- Timestamps (`created_at`, `updated_at`) and the movement log's ordering by them are left out.
- `processMetadata` takes the JSON decoding, the array check and `array_filter` as a parameter function.
- The form-request rules of `StoreProductoRequest` and `UpdateProductoRequest` are preconditions: a known state token and a non-negative amount. Their other rules are left out.
- ProductoControl.CambiarEstado: a refused adjustment raises InvalidArgumentException, which the controller does not catch. Here it is a `Failure`, and the transaction's rollback means the state change is not kept. The error page that results is left out.
- Movimientos.Registrar, Libro.RegistrarEn, Inventario.AjustarInventario, MovimientoControl.Store, ProductoControl.Store, ProductoControl.CambiarEstado: the widths of the stored quantities are left out, and integers are unbounded. `productos.cantidad` is a signed 32-bit column and `movimientos.cantidad` an unsigned 32-bit one (database/migrations/2025_05_29_000004_create_productos_table.php:23, 2025_05_29_000005_create_movimientos_table.php:23). A write outside those bounds fails in the database and rolls back, whereas these members report success; for example, `store` takes a stock of 2147483647 to 2147483648. PHP's own 64-bit overflow of `abs` is left out for the same reason.
- ProductoControl.CambiarEstado, Inventario.AjustarInventario, Movimientos.Registrar: the length of the `motivo` column (255 characters, 2025_05_29_000005_create_movimientos_table.php:24) is left out, and these members accept a reason of any length. In `cambiarEstado` validation bounds only the user's part by 255, and the recorded reason adds a prefix of at least 18 characters (see `ProductoControl.MotivoCambioExcedeColumna`). So a valid reason of more than about 200 characters makes the insert fail; the RuntimeException handler catches it, and the state change is rolled back. The success condition of ProductoControl.CambiarEstado therefore holds only for reasons that fit the column.
- `strtoupper` is modelled on ASCII letters only, as PHP 8.2 and later do. Multi-byte case mapping is left out.
- MovimientoControl.Destroy: it reverses with no stock guard, as the code does, so a reversal may leave negative stock (see `MovimientoControl.DestroyPuedeDejarNegativo`).
- Movimientos.Registrar: `registrar` runs no transaction of its own. It checks the stock as held in memory, then creates the movement and moves the stock as two separate writes. A failure between the two writes, which would leave the ledger unbalanced, is not modelled; neither is a stale in-memory stock.
- Inventario.LlamarAjuste: a name equal to `generarInformeStock` up to case is excluded. PHP would run the report, ignore the extra arguments and hand an array back where a movement is expected; the model does not represent that. The same applies to ProductoControl.CambiarEstadoLlamando.
- MovimientoControl.Store, MovimientoControl.Destroy, ProductoControl.CambiarEstado, ProductoControl.Restore: routing is left out. The route file registers only the seven actions of the product resource (`index`, `create`, `store`, `show`, `edit`, `update`, `destroy`). No route reaches the movement endpoints, `cambiarEstado` or `restore`, so the two Findings rows in `cambiarEstado` lie in an action no request can reach today. The model treats all of them as reachable.
- ProductoControl.Store, ProductoControl.Update, ProductoControl.CambiarEstado, ProductoControl.Destroy, ProductoControl.Restore: authorization is left out. The controller's constructor applies the `can:gestionar_productos` middleware to every action except `index` and `show`, so a user without that ability gets 403 before these actions run. The model takes every caller as authorized.
- Stale reads between the two steps of `destroy` are left out. The product is re-read inside the same transaction.

## Findings

| source | as written | input that shows it | evidently intended | confidence | as-written member | corrected member |
|---|---|---|---|---|---|---|
| app/Http/Controllers/MovimientoController.php:66-68 | `$movimiento->tipo === 'entrada'` compares the enum-cast `tipo` with a string. PHP `===` is never true between an enum case and a string, so every reversal increments the stock | store an "entrada" of n units for a product with stock s, then destroy that movement: the stock ends at s + 2n instead of s | reverting an inward movement decrements the stock, and reverting an outward one increments it, so the ledger stays balanced | high; not executed | MovimientoControl.DestroyComoEscrito (shown by MovimientoControl.StoreLuegoDestroyComoEscrito and MovimientoControl.DestroyComoEscritoDescuadra) | MovimientoControl.Destroy (proved by MovimientoControl.StoreLuegoDestroy and MovimientoControl.DestroyCuadra) |
| app/Services/InventarioService.php:23-29 | `registrar` is called with the named argument `responsable:`, which it does not declare. PHP 8 rejects an unknown named parameter with an Error before the function runs | `ajustarInventario($p, 3, 'x')` for any product: it throws, and no movement is recorded | record a movement of the delta's magnitude and move the stock by the delta | high; not executed | Inventario.AjustarInventarioComoEscrito (shown by Inventario.AjustarInventarioComoEscritoNuncaAjusta) | Inventario.AjustarInventario (its contract states the exact stock move) |
| app/Services/InventarioService.php:32-37 | after `registrar` has already incremented or decremented the product (Eloquent updates the model in memory too), `cantidad` is written again from that moved value with the same amount | with `responsable:` dropped, a product with stock 10 adjusted by +3 ends at 16 instead of 13 | the stock moves by the delta once | medium; not executed | Inventario.AjustarConReescritura (shown by Inventario.ReescrituraDuplica) | Inventario.AjustarInventario |
| app/Http/Controllers/ProductoController.php:173 | `DB::transaction` is used but the controller never imports the `DB` facade, so inside `App\Http\Controllers` it names a class that does not exist | a valid request moving a DISPONIBLE product to EN_USO with no reason: Error, and the state is unchanged | open a transaction and change the state | high; not executed | ProductoControl.CambiarEstadoComoEscrito (shown by ProductoControl.CambiarEstadoComoEscritoNuncaCambia) | ProductoControl.CambiarEstado |
| app/Http/Controllers/ProductoController.php:177-181 | the adjustment calls `ajustarStock`, which the service does not define (it defines `ajustarInventario`), so PHP throws an Error | with the facade imported, a valid change DISPONIBLE to EN_USO with reason "x" and amount 2: Error, and the transaction is rolled back | adjust the stock through `ajustarInventario` | high; not executed | ProductoControl.CambiarEstadoLlamando with "ajustarStock" (shown by ProductoControl.AjusteConNombreInexistente) | ProductoControl.CambiarEstado |
| app/Models/producto.php:78 | the product model's namespace does not import `App\Enums\TipoMovimiento`, so `TipoMovimiento::from` names `App\Models\TipoMovimiento`, a class that does not exist | `registrarMovimiento('entrada', 3)` on any product: Error, and no movement is recorded | parse the token with the movement-type enum and call `registrar` | high; not executed | Movimientos.RegistrarMovimientoComoEscrito (shown by Movimientos.RegistrarMovimientoComoEscritoNuncaRegistra) | Movimientos.RegistrarMovimiento (with Movimientos.RegistrarMovimientoValue) |
| app/Http/Controllers/MovimientoController.php:34 | the controller does not import `Illuminate\Http\Request`, so the parameter type `Request` names `App\Http\Controllers\Request`. The container cannot build it and throws before the method runs | a valid request storing an "entrada" of 2 for a live product: BindingResolutionException, and nothing is written | validate the request, record the movement and move the stock | high; not executed | MovimientoControl.StoreComoEscrito (shown by MovimientoControl.StoreComoEscritoNuncaRegistra) | MovimientoControl.Store |

=== FILE: base.dfy ===
/** Shared vocabulary of the inventory model: optional values, the outcome of
    an operation that may throw, and the exceptions the application raises.

    PHP exceptions become `Failure` values.  The exception classes the
    application distinguishes are kept apart:
    - `InvalidArgument` is `\InvalidArgumentException`;
    - `Runtime` is `\RuntimeException`;
    - `ValueError` is what `BackedEnum::from` throws for an unknown token;
    - `Validation` is the `ValidationException` a controller's own
      `$request->validate(...)` raises when a rule fails;
    - `ErrorPhp` is an engine `\Error`: a call the language itself rejects
      (an unknown named argument, an undefined method, a missing class);
    - `NoEncontrado` is the 404 route-model binding answers for a record
      it does not find (soft-deleted ones included);
    - `ResolucionFallida` is the container's `BindingResolutionException`
      for a type-hinted parameter whose class does not exist.
    Each of `InvalidArgument`, `Runtime` and `ErrorPhp` carries a `Causa`
    naming which guard fired, standing in for the exception's message. */
module Base {

  datatype Option<+T> = None | Some(value: T)

  /** Which guard raised the exception (the message text, as a tag). */
  datatype Causa =
    | CantidadNoPositiva       // "La cantidad debe ser mayor a cero"
    | StockInsuficiente        // "Stock insuficiente para este movimiento"
    | CantidadNegativa         // "La cantidad no puede ser negativa"
    | EstadoSinMovimientos     // "No se puede modificar el stock en el estado actual"
    | TransicionNoPermitida    // "Transición no permitida ..."
    | EstadoFinal              // "No se puede eliminar un producto en estado final"
    | EstadoInvalido           // "Estado inválido: ..."
    | ParametroDesconocido     // an unknown named parameter in a call
    | MetodoInexistente        // a call to an undefined method
    | ClaseInexistente         // a class name that resolves to no class

  datatype Falla =
    | InvalidArgument(causa: Causa)
    | Runtime(causa: Causa)
    | ValueError
    | Validation
    | ErrorPhp(causa: Causa)
    | NoEncontrado
    | ResolucionFallida

  /** The outcome of an operation: a value, or the exception it threw. */
  datatype Result<+T> = Success(value: T) | Failure(error: Falla) {

    predicate IsFailure() {
      Failure?
    }

    function PropagateFailure<U>(): Result<U>
      requires Failure?
    {
      Failure(error)
    }

    function Extract(): T
      requires Success?
    {
      value
    }
  }
}

=== FILE: inventario_service.dfy ===
/** The inventory service: a signed stock adjustment turned into a
    movement, and the stock report as a pure aggregate over the products. */
module Inventario {
  import opened Base
  import opened Texto
  import opened Tipos
  import opened Estados
  import opened Productos
  import opened Movimientos

  /** The movement type an adjustment of `delta` becomes: inward for a
      positive delta, outward otherwise (zero included). */
  function TipoPara(delta: int): (t: TipoMovimiento)
    ensures t == Entrada <==> delta > 0
  {
    if delta > 0 then Entrada else Salida
  }

  /** `abs($delta)`: the amount of the movement. */
  function Magnitud(delta: int): (n: nat)
    ensures n == delta || n == -delta
  {
    if delta < 0 then -delta else delta
  }

  /** Type and amount together encode the delta exactly: the signed effect
      of the derived movement is the delta it came from. */
  lemma DerivacionInversa(delta: int)
    ensures Efecto(TipoPara(delta), Magnitud(delta)) == delta
    ensures Magnitud(delta) > 0 <==> delta != 0
  {
  }

  /** `ajustarInventario` as its name and comments promise: derive the
      movement's type and amount from the sign of `delta`, record it with
      `registrar`, and so move the stock by `delta` exactly once, inside a
      transaction. */
  function AjustarInventario(p: Producto, delta: int, motivo: string): (r: Result<Registro>)
    // a zero delta becomes an outward movement of 0, which `registrar` refuses
    ensures delta == 0 ==> r == Failure(InvalidArgument(CantidadNoPositiva))
    // a decrease larger than the stock is refused by `registrar`'s stock check
    ensures delta < 0 && -delta > p.cantidad ==> r == Failure(Runtime(StockInsuficiente))
    ensures r.Success? <==> delta > 0 || (delta < 0 && -delta <= p.cantidad)
    ensures r.Success? ==> r.value.movimiento.tipo == TipoPara(delta)
    ensures r.Success? ==> r.value.movimiento.cantidad == Magnitud(delta) > 0
    ensures r.Success? ==> r.value.movimiento.motivo == Some(motivo)
    ensures r.Success? ==> r.value.movimiento.productoId == p.id
    // the stock moves by `delta` and nothing else about the product changes
    ensures r.Success? ==> r.value.producto == p.(cantidad := p.cantidad + delta)
  {
    Registrar(p, TipoPara(delta), Magnitud(delta), Some(motivo))
  }

  /** The parameter names `registrar` declares. */
  function ParametrosRegistrar(): set<string> {
    {"producto", "tipo", "cantidad", "motivo"}
  }

  /** A call to `registrar` with the named arguments `nombres`.  PHP rejects
      a name the function does not declare with an `Error`, before the
      function's body runs. */
  function LlamarRegistrar(p: Producto, tipo: TipoMovimiento, cantidad: int, motivo: Option<string>, nombres: set<string>)
    : (r: Result<Registro>)
    ensures !(nombres <= ParametrosRegistrar()) ==> r == Failure(ErrorPhp(ParametroDesconocido))
    ensures nombres <= ParametrosRegistrar() ==> r == Registrar(p, tipo, cantidad, motivo)
  {
    if nombres <= ParametrosRegistrar() then Registrar(p, tipo, cantidad, motivo)
    else Failure(ErrorPhp(ParametroDesconocido))
  }

  /** The transaction of `ajustarInventario` in the shape the service gives
      it: the call to `registrar` with the named arguments `nombres`, then a
      second write of `cantidad`.  That write starts from the product
      `registrar` has already moved (its increment or decrement updates the
      model in memory) and moves it again by the same amount. */
  function AjustarConReescritura(p: Producto, delta: int, motivo: string, nombres: set<string>): (r: Result<Registro>)
    ensures r.Success? <==> LlamarRegistrar(p, TipoPara(delta), Magnitud(delta), Some(motivo), nombres).Success?
    ensures r.Success? ==>
              r.value.movimiento == LlamarRegistrar(p, TipoPara(delta), Magnitud(delta), Some(motivo), nombres).value.movimiento
  {
    var reg :- LlamarRegistrar(p, TipoPara(delta), Magnitud(delta), Some(motivo), nombres);
    var n := match TipoPara(delta)
      case Entrada => reg.producto.cantidad + Magnitud(delta)
      case Salida => reg.producto.cantidad - Magnitud(delta);
    Success(Registro(reg.producto.(cantidad := n), reg.movimiento))
  }

  /** `ajustarInventario` as written: `registrar` is also passed
      `responsable:`, a parameter it does not declare. */
  function AjustarInventarioComoEscrito(p: Producto, delta: int, motivo: string): (r: Result<Registro>)
    ensures r == Failure(ErrorPhp(ParametroDesconocido))
  {
    AjustarConReescritura(p, delta, motivo, ParametrosRegistrar() + {"responsable"})
  }

  /** As written no adjustment is ever made, while every positive one
      succeeds as intended. */
  lemma AjustarInventarioComoEscritoNuncaAjusta(p: Producto, delta: int, motivo: string)
    requires delta > 0
    ensures AjustarInventarioComoEscrito(p, delta, motivo).Failure?
    ensures AjustarInventario(p, delta, motivo).Success?
    ensures AjustarInventario(p, delta, motivo).value.producto.cantidad == p.cantidad + delta
  {
  }

  /** Even with the unknown argument dropped, the second write would move
      the stock twice: it accepts exactly when the intended adjustment
      does, and then lands `delta` beyond it. */
  lemma ReescrituraDuplica(p: Producto, delta: int, motivo: string)
    ensures AjustarConReescritura(p, delta, motivo, ParametrosRegistrar()).Success?
        <==> AjustarInventario(p, delta, motivo).Success?
    ensures AjustarConReescritura(p, delta, motivo, ParametrosRegistrar()).Success? ==>
              && AjustarConReescritura(p, delta, motivo, ParametrosRegistrar()).value.producto.cantidad == p.cantidad + 2 * delta
              && AjustarInventario(p, delta, motivo).value.producto.cantidad == p.cantidad + delta
  {
  }

  /** A call of an adjustment on the service by method name, which PHP
      matches without regard to ASCII case.  The service defines
      `ajustarInventario` (taken here as intended); a name it does not define
      is an undefined method, which PHP rejects with an `Error`.  The
      service's one other method, the report, takes no adjustment. */
  function LlamarAjuste(metodo: string, p: Producto, delta: int, motivo: string): (r: Result<Registro>)
    requires !MismoNombre(metodo, "generarInformeStock")
    ensures MismoNombre(metodo, "ajustarInventario") ==> r == AjustarInventario(p, delta, motivo)
    ensures !MismoNombre(metodo, "ajustarInventario") ==> r == Failure(ErrorPhp(MetodoInexistente))
  {
    if MismoNombre(metodo, "ajustarInventario") then AjustarInventario(p, delta, motivo)
    else Failure(ErrorPhp(MetodoInexistente))
  }

  /** `productos_bajo_stock` counts products with fewer than this many units. */
  const UmbralBajoStock: int := 5

  datatype Estadistica = Estadistica(total: nat, stock: int)

  /** The report: product count, total units, products below the
      threshold, and per state (keyed by its token, present only for states
      that have products) the count and the units. */
  datatype Informe = Informe(
    totalProductos: nat,
    stockTotal: int,
    productosBajoStock: nat,
    porEstado: map<string, Estadistica>)

  /** The products the queries see: soft-deleted ones are excluded. */
  function Vigentes(ps: seq<Producto>): (r: seq<Producto>)
    ensures |r| <= |ps|
    ensures forall i :: 0 <= i < |r| ==> !r[i].eliminado
    ensures forall i :: 0 <= i < |ps| && !ps[i].eliminado ==> ps[i] in r
    // exactly the live products, each as often as it is stored
    ensures forall x :: multiset(r)[x] == if x.eliminado then 0 else multiset(ps)[x]
  {
    if ps == [] then []
    else
      assert ps == [ps[0]] + ps[1..];
      if ps[0].eliminado then Vigentes(ps[1..])
      else [ps[0]] + Vigentes(ps[1..])
  }

  function SumaCantidad(ps: seq<Producto>): int {
    if ps == [] then 0 else ps[0].cantidad + SumaCantidad(ps[1..])
  }

  function ContarBajoStock(ps: seq<Producto>): (n: nat)
    ensures n <= |ps|
  {
    if ps == [] then 0
    else (if ps[0].cantidad < UmbralBajoStock then 1 else 0) + ContarBajoStock(ps[1..])
  }

  function ContarEstado(ps: seq<Producto>, e: ProductoEstado): (n: nat)
    ensures n <= |ps|
  {
    if ps == [] then 0
    else (if ps[0].estado == e then 1 else 0) + ContarEstado(ps[1..], e)
  }

  function StockEstado(ps: seq<Producto>, e: ProductoEstado): int {
    if ps == [] then 0
    else (if ps[0].estado == e then ps[0].cantidad else 0) + StockEstado(ps[1..], e)
  }

  /** The per-state breakdown of a list of products, keyed by the state's
      token; a state appears only when it has products. */
  function Desglose(vs: seq<Producto>): (m: map<string, Estadistica>)
    ensures forall e: ProductoEstado :: Estados.Value(e) in m <==> ContarEstado(vs, e) > 0
    ensures forall e: ProductoEstado :: Estados.Value(e) in m ==>
              m[Estados.Value(e)] == Estadistica(ContarEstado(vs, e), StockEstado(vs, e))
  {
    var m := map e | e in Casos() && ContarEstado(vs, e) > 0 :: Estados.Value(e) := Estadistica(ContarEstado(vs, e), StockEstado(vs, e));
    forall e: ProductoEstado
      ensures Estados.Value(e) in m <==> ContarEstado(vs, e) > 0
      ensures Estados.Value(e) in m ==> m[Estados.Value(e)] == Estadistica(ContarEstado(vs, e), StockEstado(vs, e))
    {
      forall e' | Estados.Value(e') == Estados.Value(e) ensures e' == e {
        Estados.ValueInyectiva(e', e);
      }
    }
    m
  }

  /** `generarInformeStock`, without the cache in front of it. */
  function GenerarInformeStock(ps: seq<Producto>): (r: Informe)
    // the headline figures are over the live products only
    ensures r.totalProductos == |Vigentes(ps)| <= |ps|
    ensures r.stockTotal == SumaCantidad(Vigentes(ps))
    ensures r.productosBajoStock == ContarBajoStock(Vigentes(ps)) <= r.totalProductos
    ensures forall e: ProductoEstado :: Estados.Value(e) in r.porEstado <==> ContarEstado(Vigentes(ps), e) > 0
    ensures forall e: ProductoEstado :: Estados.Value(e) in r.porEstado ==>
              r.porEstado[Estados.Value(e)] == Estadistica(ContarEstado(Vigentes(ps), e), StockEstado(Vigentes(ps), e))
  {
    var vs := Vigentes(ps);
    Informe(|vs|, SumaCantidad(vs), ContarBajoStock(vs), Desglose(vs))
  }

  /** The statistics of one state, zero when the report has no entry for it. */
  function EstadisticaDe(inf: Informe, e: ProductoEstado): Estadistica {
    if Estados.Value(e) in inf.porEstado then inf.porEstado[Estados.Value(e)] else Estadistica(0, 0)
  }

  function TotalPorEstado(inf: Informe): int {
    EstadisticaDe(inf, Disponible).total + EstadisticaDe(inf, EnUso).total + EstadisticaDe(inf, Mantenimiento).total
    + EstadisticaDe(inf, Baja).total + EstadisticaDe(inf, Reservado).total + EstadisticaDe(inf, PendienteRevision).total
  }

  function StockPorEstado(inf: Informe): int {
    EstadisticaDe(inf, Disponible).stock + EstadisticaDe(inf, EnUso).stock + EstadisticaDe(inf, Mantenimiento).stock
    + EstadisticaDe(inf, Baja).stock + EstadisticaDe(inf, Reservado).stock + EstadisticaDe(inf, PendienteRevision).stock
  }

  /** Every product is in exactly one state, so the per-state counts and
      units add up to the totals. */
  lemma {:induction false} ConteosPorEstado(ps: seq<Producto>)
    ensures ContarEstado(ps, Disponible) + ContarEstado(ps, EnUso) + ContarEstado(ps, Mantenimiento)
          + ContarEstado(ps, Baja) + ContarEstado(ps, Reservado) + ContarEstado(ps, PendienteRevision) == |ps|
    ensures StockEstado(ps, Disponible) + StockEstado(ps, EnUso) + StockEstado(ps, Mantenimiento)
          + StockEstado(ps, Baja) + StockEstado(ps, Reservado) + StockEstado(ps, PendienteRevision) == SumaCantidad(ps)
  {
    if ps != [] {
      ConteosPorEstado(ps[1..]);
    }
  }

  /** The report is internally consistent: its per-state breakdown adds up
      to `total_productos` and to `stock_total`. */
  lemma InformeCuadra(ps: seq<Producto>)
    ensures TotalPorEstado(GenerarInformeStock(ps)) == GenerarInformeStock(ps).totalProductos
    ensures StockPorEstado(GenerarInformeStock(ps)) == GenerarInformeStock(ps).stockTotal
  {
    var vs := Vigentes(ps);
    var inf := GenerarInformeStock(ps);
    ConteosPorEstado(vs);
    forall e: ProductoEstado
      ensures EstadisticaDe(inf, e) == Estadistica(ContarEstado(vs, e), StockEstado(vs, e))
    {
      if ContarEstado(vs, e) == 0 {
        SinProductosSinStock(vs, e);
      }
    }
  }

  /** A state with no products contributes no units. */
  lemma {:induction false} SinProductosSinStock(ps: seq<Producto>, e: ProductoEstado)
    requires ContarEstado(ps, e) == 0
    ensures StockEstado(ps, e) == 0
  {
    if ps != [] {
      SinProductosSinStock(ps[1..], e);
    }
  }
}

=== FILE: libro.dfy ===
/** The stock ledger: the stored products together with the movement log,
    and the invariant that ties them — each product's stock is its opening
    stock plus the signed amounts of its movements that have not been
    reverted.  Recording a movement keeps the invariant; the administrative
    override does not. */
module Libro {
  import opened Base
  import opened Tipos
  import opened Productos
  import opened Movimientos

  /** The persisted state the core reads and writes: the products by id and
      the movement log in creation order (soft-deleted rows included). */
  datatype Almacen = Almacen(productos: map<nat, Producto>, movimientos: seq<Movimiento>)

  /** What the schema guarantees: every product is stored under its own id,
      and every movement refers to a stored product (the foreign key on
      `producto_id`, which cascades on hard delete). */
  ghost predicate BienFormado(a: Almacen) {
    && (forall id :: id in a.productos ==> a.productos[id].id == id)
    && (forall i :: 0 <= i < |a.movimientos| ==> a.movimientos[i].productoId in a.productos)
  }

  /** What one movement contributes to product `pid`'s stock: nothing once
      reverted or when it belongs to another product. */
  function Aporte(m: Movimiento, pid: nat): int {
    if m.eliminado || m.productoId != pid then 0 else Efecto(m.tipo, m.cantidad)
  }

  /** The net stock change the live movements record for product `pid`. */
  function Saldo(ms: seq<Movimiento>, pid: nat): int {
    if ms == [] then 0 else Aporte(ms[0], pid) + Saldo(ms[1..], pid)
  }

  /** The ledger invariant, relative to each product's opening stock. */
  ghost predicate Cuadra(a: Almacen, inicial: map<nat, int>) {
    forall id :: id in a.productos ==>
      id in inicial && a.productos[id].cantidad == inicial[id] + Saldo(a.movimientos, id)
  }

  /** A product no movement refers to has a zero balance. */
  lemma {:induction false} SaldoSinMovimientos(ms: seq<Movimiento>, pid: nat)
    requires forall i :: 0 <= i < |ms| ==> ms[i].productoId != pid
    ensures Saldo(ms, pid) == 0
  {
    if ms != [] {
      SaldoSinMovimientos(ms[1..], pid);
    }
  }

  /** Appending a movement adds its contribution to the balance. */
  lemma {:induction false} SaldoAgregar(ms: seq<Movimiento>, m: Movimiento, pid: nat)
    ensures Saldo(ms + [m], pid) == Saldo(ms, pid) + Aporte(m, pid)
  {
    if ms == [] {
      assert (ms + [m])[1..] == [];
    } else {
      assert (ms + [m])[1..] == ms[1..] + [m];
      SaldoAgregar(ms[1..], m, pid);
    }
  }

  /** Soft-deleting one movement withdraws exactly its contribution. */
  lemma {:induction false} SaldoAnular(ms: seq<Movimiento>, i: nat, pid: nat)
    requires i < |ms|
    ensures Saldo(ms[i := ms[i].(eliminado := true)], pid) == Saldo(ms, pid) - Aporte(ms[i], pid)
  {
    var ms' := ms[i := ms[i].(eliminado := true)];
    if i == 0 {
      assert ms'[1..] == ms[1..];
    } else {
      assert ms'[1..] == ms[1..][i - 1 := ms[1..][i - 1].(eliminado := true)];
      SaldoAnular(ms[1..], i - 1, pid);
    }
  }

  /** `registrar` against the stored state: on success the product is
      rewritten and the movement appended; nothing else changes. */
  function RegistrarEn(a: Almacen, pid: nat, tipo: TipoMovimiento, n: int, motivo: Option<string>): (r: Result<Almacen>)
    requires pid in a.productos
    ensures r.Failure? ==> r.error == InvalidArgument(CantidadNoPositiva) || r.error == Runtime(StockInsuficiente)
    ensures r.Success? <==> n > 0 && (tipo == Salida ==> n <= a.productos[pid].cantidad)
    ensures r.Success? ==> |r.value.movimientos| == |a.movimientos| + 1
    ensures r.Success? ==> r.value.movimientos[..|a.movimientos|] == a.movimientos
    ensures r.Success? ==> r.value.productos.Keys == a.productos.Keys
    ensures r.Success? ==> forall id :: id in a.productos && id != pid ==> r.value.productos[id] == a.productos[id]
    // the product's stock moves by the movement's signed amount, and the
    // appended movement is exactly the one requested
    ensures r.Success? ==>
              r.value.productos[pid] == a.productos[pid].(cantidad := a.productos[pid].cantidad + Efecto(tipo, n))
    ensures r.Success? ==>
              r.value.movimientos[|a.movimientos|] == Movimiento(a.productos[pid].id, tipo, n, motivo, false)
  {
    var reg :- Registrar(a.productos[pid], tipo, n, motivo);
    Success(Almacen(a.productos[pid := reg.producto], a.movimientos + [reg.movimiento]))
  }

  /** Recording a movement keeps the ledger balanced. */
  lemma RegistrarEnCuadra(a: Almacen, inicial: map<nat, int>, pid: nat, tipo: TipoMovimiento, n: int, motivo: Option<string>)
    requires BienFormado(a) && Cuadra(a, inicial)
    requires pid in a.productos
    requires RegistrarEn(a, pid, tipo, n, motivo).Success?
    ensures BienFormado(RegistrarEn(a, pid, tipo, n, motivo).value)
    ensures Cuadra(RegistrarEn(a, pid, tipo, n, motivo).value, inicial)
  {
    var a' := RegistrarEn(a, pid, tipo, n, motivo).value;
    var m := Registrar(a.productos[pid], tipo, n, motivo).value.movimiento;
    assert a'.movimientos == a.movimientos + [m];
    forall id | id in a'.productos
      ensures a'.productos[id].cantidad == inicial[id] + Saldo(a'.movimientos, id)
    {
      SaldoAgregar(a.movimientos, m, id);
    }
  }

  /** `actualizarStock` against the stored state: the product's stock is
      overwritten and the movement log is left alone. */
  function ActualizarStockEn(a: Almacen, pid: nat, nuevaCantidad: int, forzar: bool): (r: Result<Almacen>)
    requires pid in a.productos
    ensures r.Success? <==> ActualizarStock(a.productos[pid], nuevaCantidad, forzar).Success?
    ensures r.Success? ==> r.value.movimientos == a.movimientos
    ensures r.Success? ==> r.value.productos == a.productos[pid := a.productos[pid].(cantidad := nuevaCantidad)]
  {
    var p :- ActualizarStock(a.productos[pid], nuevaCantidad, forzar);
    Success(a.(productos := a.productos[pid := p]))
  }

  /** Because the override records no movement, it keeps the ledger
      balanced only when it does not actually change the stock. */
  lemma ActualizarStockDescuadra(a: Almacen, inicial: map<nat, int>, pid: nat, nuevaCantidad: int, forzar: bool)
    requires Cuadra(a, inicial)
    requires pid in a.productos
    requires ActualizarStockEn(a, pid, nuevaCantidad, forzar).Success?
    ensures Cuadra(ActualizarStockEn(a, pid, nuevaCantidad, forzar).value, inicial)
        <==> nuevaCantidad == a.productos[pid].cantidad
  {
    var a' := ActualizarStockEn(a, pid, nuevaCantidad, forzar).value;
    if nuevaCantidad == a.productos[pid].cantidad {
      assert a'.productos == a.productos;
    } else {
      assert a'.productos[pid].cantidad != inicial[pid] + Saldo(a'.movimientos, pid);
    }
  }
}

=== FILE: movimiento.dfy ===
/** Stock movements and the guarded way of recording one
    (`Movimiento::registrar`), which creates the movement and then moves
    the product's stock. */
module Movimientos {
  import opened Base
  import opened Tipos
  import opened Productos

  /** One row of the `movimientos` table.  The amount is positive; the
      direction is carried by `tipo`.  `eliminado` is the soft-delete marker
      a reversal sets. */
  datatype Movimiento = Movimiento(
    productoId: nat,
    tipo: TipoMovimiento,
    cantidad: int,
    motivo: Option<string>,
    eliminado: bool)

  /** What a successful `registrar` leaves behind: the product with its
      stock moved, and the movement it created. */
  datatype Registro = Registro(producto: Producto, movimiento: Movimiento)

  /** The signed change in stock that a movement of type `t` and amount `n`
      stands for. */
  function Efecto(t: TipoMovimiento, n: int): int {
    match t
    case Entrada => n
    case Salida => -n
  }

  /** `Movimiento::registrar`.  The amount is checked first, then (for an
      outward movement) the stock; only then is the movement created and
      the stock moved.  The product's state is never consulted. */
  function Registrar(p: Producto, tipo: TipoMovimiento, cantidad: int, motivo: Option<string>): (r: Result<Registro>)
    ensures cantidad <= 0 ==> r == Failure(InvalidArgument(CantidadNoPositiva))
    ensures cantidad > 0 && tipo == Salida && p.cantidad < cantidad ==> r == Failure(Runtime(StockInsuficiente))
    ensures r.Success? <==> cantidad > 0 && (tipo == Salida ==> cantidad <= p.cantidad)
    // the record carries exactly the product, type, amount and reason given
    ensures r.Success? ==> r.value.movimiento == Movimiento(p.id, tipo, cantidad, motivo, false)
    ensures r.Success? && tipo == Entrada ==> r.value.producto == p.(cantidad := p.cantidad + cantidad)
    ensures r.Success? && tipo == Salida ==> r.value.producto == p.(cantidad := p.cantidad - cantidad)
    // stock that starts non-negative stays non-negative
    ensures r.Success? && p.cantidad >= 0 ==> r.value.producto.cantidad >= 0
  {
    if cantidad <= 0 then Failure(InvalidArgument(CantidadNoPositiva))
    else if tipo == Salida && p.cantidad < cantidad then Failure(Runtime(StockInsuficiente))
    else
      var m := Movimiento(p.id, tipo, cantidad, motivo, false);
      Success(Registro(p.(cantidad := p.cantidad + Efecto(tipo, cantidad)), m))
  }

  /** The outcome of `registrar` does not depend on the product's state:
      changing the state beforehand changes nothing but the state. */
  lemma RegistrarIgnoraEstado(p: Producto, e: Estados.ProductoEstado, tipo: TipoMovimiento, n: int, motivo: Option<string>)
    ensures Registrar(p.(estado := e), tipo, n, motivo).Success? == Registrar(p, tipo, n, motivo).Success?
    ensures Registrar(p, tipo, n, motivo).Failure? ==>
              Registrar(p.(estado := e), tipo, n, motivo) == Registrar(p, tipo, n, motivo)
    ensures Registrar(p, tipo, n, motivo).Success? ==>
              var a := Registrar(p, tipo, n, motivo).value;
              Registrar(p.(estado := e), tipo, n, motivo) == Success(Registro(a.producto.(estado := e), a.movimiento))
  {
  }

  /** `Producto::registrarMovimiento` as intended: parse the type token
      with the movement-type enum's `from`, then delegate to `registrar`. */
  function RegistrarMovimiento(p: Producto, tipo: string, cantidad: int, motivo: Option<string>): (r: Result<Registro>)
    ensures tipo != "entrada" && tipo != "salida" ==> r == Failure(ValueError)
    ensures r.Success? ==> Tipos.Value(r.value.movimiento.tipo) == tipo
    ensures r.Success? ==> r.value.movimiento.cantidad == cantidad > 0
  {
    var t :- Tipos.From(tipo);
    Registrar(p, t, cantidad, motivo)
  }

  /** Parsing a type's own token and then registering is registering that
      type: the token round trip loses nothing. */
  lemma RegistrarMovimientoValue(p: Producto, t: TipoMovimiento, n: int, motivo: Option<string>)
    ensures RegistrarMovimiento(p, Tipos.Value(t), n, motivo) == Registrar(p, t, n, motivo)
  {
    Tipos.FromValue(t);
  }

  /** `registrarMovimiento` as written: the product model's namespace does
      not import the movement-type enum, so `TipoMovimiento::from` names a
      class of the models' own namespace, which does not exist.  Every call
      ends in an `Error` before the token is even looked at. */
  function RegistrarMovimientoComoEscrito(p: Producto, tipo: string, cantidad: int, motivo: Option<string>)
    : (r: Result<Registro>)
    ensures r.Failure? && r.error == ErrorPhp(ClaseInexistente)
  {
    Failure(ErrorPhp(ClaseInexistente))
  }

  /** As written no movement is ever registered this way, while the
      intended method registers every positive inward movement. */
  lemma RegistrarMovimientoComoEscritoNuncaRegistra(p: Producto, n: int, motivo: Option<string>)
    requires n > 0
    ensures RegistrarMovimientoComoEscrito(p, "entrada", n, motivo).Failure?
    ensures RegistrarMovimiento(p, "entrada", n, motivo).Success?
    ensures RegistrarMovimiento(p, "entrada", n, motivo).value.producto.cantidad == p.cantidad + n
  {
  }

  /** `tipoFormateado()`. */
  function TipoFormateado(m: Movimiento): (s: string)
    ensures s == "Entrada de inventario" <==> m.tipo == Entrada
    ensures s != "Entrada de inventario" ==> s == "Salida de inventario"
  {
    if m.tipo == Entrada then "Entrada de inventario" else "Salida de inventario"
  }
}

=== FILE: movimiento_controller.dfy ===
/** The movement endpoints: `store` records a movement and moves stock with
    no stock check, and `destroy` reverts a movement by applying the inverse
    adjustment and soft-deleting it.  Each runs in one transaction, so here
    each is one step from a stored state to the next.

    `destroy` decides the direction of the reversal with
    `$movimiento->tipo === 'entrada'`, but `tipo` is cast to the
    `TipoMovimiento` enum, and an enum case is never identical to a string.
    As written the reversal therefore always increments.  `DestroyComoEscrito`
    models that; `Destroy` is the reversal the method promises. */
module MovimientoControl {
  import opened Base
  import opened Tipos
  import opened Productos
  import opened Movimientos
  import opened Libro

  /** The request fields `store` reads. */
  datatype MovimientoRequest = MovimientoRequest(tipo: string, cantidad: int, motivo: Option<string>)

  /** `store`'s validation rules: `tipo` in {entrada, salida}, an integer
      `cantidad` of at least 1, and an optional `motivo` of at most 255
      characters. */
  predicate RequestValido(req: MovimientoRequest) {
    && (req.tipo == "entrada" || req.tipo == "salida")
    && req.cantidad >= 1
    && (req.motivo.Some? ==> |req.motivo.value| <= 255)
  }

  /** The PHP values compared with `===` in this controller: a plain string,
      or a case of the movement-type enum. */
  datatype ValorPhp = Cadena(s: string) | CasoTipo(t: TipoMovimiento)

  /** PHP's `===`: same type and same value.  A string and an enum case are
      never identical. */
  function Identico(a: ValorPhp, b: ValorPhp): (r: bool)
    ensures r <==> a == b
    ensures a.CasoTipo? && b.Cadena? ==> !r
  {
    match (a, b)
    case (Cadena(x), Cadena(y)) => x == y
    case (CasoTipo(x), CasoTipo(y)) => x == y
    case _ => false
  }

  /** `store` as intended: route-model binding finds the product (a
      soft-deleted one is a 404), then validate, create the movement and
      move the stock, as one transaction.  An outward movement is subtracted
      without looking at the stock, so the result may be negative. */
  function Store(a: Almacen, pid: nat, req: MovimientoRequest): (r: Result<Almacen>)
    requires pid in a.productos
    ensures r.Failure? <==> a.productos[pid].eliminado || !RequestValido(req)
    ensures a.productos[pid].eliminado ==> r == Failure(NoEncontrado)
    ensures !a.productos[pid].eliminado && !RequestValido(req) ==> r == Failure(Validation)
    // the movement is appended and the stock moved together, or neither
    ensures r.Success? ==> |r.value.movimientos| == |a.movimientos| + 1
    ensures r.Success? ==> r.value.movimientos[..|a.movimientos|] == a.movimientos
    ensures r.Success? ==>
              var m := r.value.movimientos[|a.movimientos|];
              && m.productoId == a.productos[pid].id && Tipos.Value(m.tipo) == req.tipo
              && m.cantidad == req.cantidad && m.motivo == req.motivo && !m.eliminado
    ensures r.Success? && req.tipo == "entrada" ==>
              r.value.productos == a.productos[pid := a.productos[pid].(cantidad := a.productos[pid].cantidad + req.cantidad)]
    ensures r.Success? && req.tipo == "salida" ==>
              r.value.productos == a.productos[pid := a.productos[pid].(cantidad := a.productos[pid].cantidad - req.cantidad)]
  {
    if a.productos[pid].eliminado then Failure(NoEncontrado)
    else if !RequestValido(req) then Failure(Validation)
    else
      // the enum cast of the stored `tipo`; validation has ruled out `ValueError`
      match Tipos.TryFrom(req.tipo)
      case None => Failure(ValueError)
      case Some(t) =>
        var p := a.productos[pid];
        var m := Movimiento(p.id, t, req.cantidad, req.motivo, false);
        var delta := if Identico(Cadena(req.tipo), Cadena("entrada")) then req.cantidad else -req.cantidad;
        Success(Almacen(a.productos[pid := p.(cantidad := p.cantidad + delta)], a.movimientos + [m]))
  }

  /** `store` as written: the controller does not import the HTTP request
      class, so its `Request` parameter names a class of the controller's
      own namespace, which does not exist.  After the product has been
      bound, the container cannot build that parameter and the method never
      runs. */
  function StoreComoEscrito(a: Almacen, pid: nat, req: MovimientoRequest): (r: Result<Almacen>)
    requires pid in a.productos
    ensures r.Failure?
    ensures a.productos[pid].eliminado ==> r.error == NoEncontrado
    ensures !a.productos[pid].eliminado ==> r.error == ResolucionFallida
  {
    if a.productos[pid].eliminado then Failure(NoEncontrado) else Failure(ResolucionFallida)
  }

  /** As written no movement is ever stored, while the intended `store`
      records every valid request for a live product. */
  lemma StoreComoEscritoNuncaRegistra(a: Almacen, pid: nat, req: MovimientoRequest)
    requires pid in a.productos && !a.productos[pid].eliminado
    requires RequestValido(req)
    ensures StoreComoEscrito(a, pid, req).Failure?
    ensures Store(a, pid, req).Success?
    ensures |Store(a, pid, req).value.movimientos| == |a.movimientos| + 1
  {
  }

  /** The two ways of applying a movement differ only in the stock guard:
      whenever `registrar` accepts, `store` does the same thing, and an
      outward movement larger than the stock that `registrar` refuses is
      accepted by `store`, leaving the stock negative. */
  lemma StoreFrenteARegistrar(a: Almacen, pid: nat, req: MovimientoRequest, t: TipoMovimiento)
    requires pid in a.productos
    requires RequestValido(req) && Tipos.Value(t) == req.tipo
    ensures RegistrarEn(a, pid, t, req.cantidad, req.motivo).Success? && !a.productos[pid].eliminado ==>
              Store(a, pid, req) == RegistrarEn(a, pid, t, req.cantidad, req.motivo)
    ensures t == Salida && req.cantidad > a.productos[pid].cantidad && !a.productos[pid].eliminado ==>
              && RegistrarEn(a, pid, t, req.cantidad, req.motivo) == Failure(Runtime(StockInsuficiente))
              && Store(a, pid, req).Success?
              && Store(a, pid, req).value.productos[pid].cantidad < 0
  {
  }

  /** `store` keeps the ledger balanced. */
  lemma StoreCuadra(a: Almacen, inicial: map<nat, int>, pid: nat, req: MovimientoRequest)
    requires BienFormado(a) && Cuadra(a, inicial)
    requires pid in a.productos
    requires Store(a, pid, req).Success?
    ensures BienFormado(Store(a, pid, req).value)
    ensures Cuadra(Store(a, pid, req).value, inicial)
  {
    var a' := Store(a, pid, req).value;
    var m := a'.movimientos[|a.movimientos|];
    assert a'.movimientos == a.movimientos + [m];
    forall id | id in a'.productos
      ensures a'.productos[id].cantidad == inicial[id] + Saldo(a'.movimientos, id)
    {
      SaldoAgregar(a.movimientos, m, id);
    }
  }

  /** What `destroy` may be called with: a live movement (route binding
      skips soft-deleted ones) whose product is stored (the relation reads
      soft-deleted products too). */
  predicate Reversible(a: Almacen, i: nat) {
    i < |a.movimientos| && !a.movimientos[i].eliminado && a.movimientos[i].productoId in a.productos
  }

  /** The common shape of `destroy`: decrement the movement's product when
      `restar` holds, increment it otherwise, and soft-delete the movement. */
  function Revertir(a: Almacen, i: nat, restar: bool): (r: Almacen)
    requires Reversible(a, i)
    ensures |r.movimientos| == |a.movimientos|
    ensures r.movimientos[i] == a.movimientos[i].(eliminado := true)
    ensures forall j :: 0 <= j < |a.movimientos| && j != i ==> r.movimientos[j] == a.movimientos[j]
    ensures r.productos.Keys == a.productos.Keys
    ensures var m := a.movimientos[i];
            var p := a.productos[m.productoId];
            r.productos == a.productos[m.productoId := p.(cantidad := if restar then p.cantidad - m.cantidad else p.cantidad + m.cantidad)]
  {
    var m := a.movimientos[i];
    var p := a.productos[m.productoId];
    var n := if restar then p.cantidad - m.cantidad else p.cantidad + m.cantidad;
    Almacen(a.productos[m.productoId := p.(cantidad := n)], a.movimientos[i := m.(eliminado := true)])
  }

  /** `destroy` with the reversal its doc comment promises: reverting an
      inward movement subtracts its amount, reverting an outward one adds
      it.  No other movement and no other product is touched. */
  function Destroy(a: Almacen, i: nat): (r: Almacen)
    requires Reversible(a, i)
    ensures |r.movimientos| == |a.movimientos|
    ensures r.movimientos[i] == a.movimientos[i].(eliminado := true)
    ensures forall j :: 0 <= j < |a.movimientos| && j != i ==> r.movimientos[j] == a.movimientos[j]
    ensures r.productos.Keys == a.productos.Keys
    ensures var m := a.movimientos[i];
            && r.productos[m.productoId].cantidad == a.productos[m.productoId].cantidad - Efecto(m.tipo, m.cantidad)
            && r.productos == a.productos[m.productoId := r.productos[m.productoId]]
            && r.productos[m.productoId] == a.productos[m.productoId].(cantidad := r.productos[m.productoId].cantidad)
  {
    Revertir(a, i, a.movimientos[i].tipo == Entrada)
  }

  /** `destroy` as written: the branch condition compares the enum-typed
      `tipo` with the string "entrada", which never holds, so every
      reversal increments. */
  function DestroyComoEscrito(a: Almacen, i: nat): (r: Almacen)
    requires Reversible(a, i)
    ensures |r.movimientos| == |a.movimientos|
    ensures r.movimientos[i] == a.movimientos[i].(eliminado := true)
    ensures r.productos.Keys == a.productos.Keys
    ensures var m := a.movimientos[i];
            r.productos[m.productoId].cantidad == a.productos[m.productoId].cantidad + m.cantidad
  {
    var m := a.movimientos[i];
    Revertir(a, i, Identico(CasoTipo(m.tipo), Cadena("entrada")))
  }

  /** The intended reversal keeps the ledger balanced. */
  lemma DestroyCuadra(a: Almacen, inicial: map<nat, int>, i: nat)
    requires BienFormado(a) && Cuadra(a, inicial)
    requires Reversible(a, i)
    ensures BienFormado(Destroy(a, i))
    ensures Cuadra(Destroy(a, i), inicial)
  {
    var a' := Destroy(a, i);
    assert a'.movimientos == a.movimientos[i := a.movimientos[i].(eliminado := true)];
    forall id | id in a'.productos
      ensures a'.productos[id].cantidad == inicial[id] + Saldo(a'.movimientos, id)
    {
      SaldoAnular(a.movimientos, i, id);
    }
  }

  /** Recording a movement with `store` and then reverting it with the
      intended `destroy` gives every product back its stock. */
  lemma StoreLuegoDestroy(a: Almacen, pid: nat, req: MovimientoRequest)
    requires pid in a.productos && a.productos[pid].id == pid
    requires Store(a, pid, req).Success?
    ensures Reversible(Store(a, pid, req).value, |a.movimientos|)
    ensures Destroy(Store(a, pid, req).value, |a.movimientos|).productos == a.productos
  {
  }

  /** As written, the round trip fails for every inward movement: the stock
      ends up twice the amount above where it started. */
  lemma StoreLuegoDestroyComoEscrito(a: Almacen, pid: nat, req: MovimientoRequest)
    requires pid in a.productos && a.productos[pid].id == pid && !a.productos[pid].eliminado
    requires req.tipo == "entrada" && RequestValido(req)
    ensures Store(a, pid, req).Success?
    ensures Reversible(Store(a, pid, req).value, |a.movimientos|)
    ensures DestroyComoEscrito(Store(a, pid, req).value, |a.movimientos|).productos[pid].cantidad
              == a.productos[pid].cantidad + 2 * req.cantidad
    ensures DestroyComoEscrito(Store(a, pid, req).value, |a.movimientos|).productos != a.productos
  {
  }

  /** As written, reverting any live inward movement unbalances the ledger. */
  lemma DestroyComoEscritoDescuadra(a: Almacen, inicial: map<nat, int>, i: nat)
    requires BienFormado(a) && Cuadra(a, inicial)
    requires Reversible(a, i) && a.movimientos[i].tipo == Entrada && a.movimientos[i].cantidad > 0
    ensures !Cuadra(DestroyComoEscrito(a, i), inicial)
  {
    var a' := DestroyComoEscrito(a, i);
    var pid := a.movimientos[i].productoId;
    SaldoAnular(a.movimientos, i, pid);
    assert a'.movimientos == a.movimientos[i := a.movimientos[i].(eliminado := true)];
    assert a'.productos[pid].cantidad != inicial[pid] + Saldo(a'.movimientos, pid);
  }

  /** Reverting an inward movement is unguarded: when the product has less
      stock than the movement's amount, the stock goes negative. */
  lemma DestroyPuedeDejarNegativo(a: Almacen, i: nat)
    requires Reversible(a, i) && a.movimientos[i].tipo == Entrada
    requires a.productos[a.movimientos[i].productoId].cantidad < a.movimientos[i].cantidad
    ensures Destroy(a, i).productos[a.movimientos[i].productoId].cantidad < 0
  {
  }
}

=== FILE: producto.dfy ===
/** The product aggregate: its stored attributes and the guarded mutations
    the model class exposes (`actualizarStock`, `cambiarEstado`), the
    availability predicates and the `numero_inventario` accessor pair. */
module Productos {
  import opened Base
  import opened Texto
  import opened Estados

  /** The decoded `metadata` JSON column. */
  type Metadata = map<string, string>

  /** One row of the `productos` table.  `cantidad` is a signed integer
      column; `numeroInventario` is the raw stored value (the accessor below
      derives what callers read); `eliminado` is the soft-delete marker. */
  datatype Producto = Producto(
    id: nat,
    numeroSerie: Option<string>,
    numeroInventario: Option<string>,
    nombre: string,
    descripcion: Option<string>,
    cantidad: int,
    modelo: Option<string>,
    ubicacion: Option<string>,
    estado: ProductoEstado,
    categoriaId: Option<nat>,
    marcaId: Option<nat>,
    metadata: Option<Metadata>,
    eliminado: bool)

  /** The `numero_inventario` mutator: the value is stored upper-cased;
      nothing else about the product changes. */
  function ConNumeroInventario(p: Producto, valor: string): (r: Producto)
    ensures r.numeroInventario.Some? && |r.numeroInventario.value| == |valor|
    ensures forall i :: 0 <= i < |valor| ==> !EsMinuscula(r.numeroInventario.value[i])
    // each character is the input's, upper-cased
    ensures forall i :: 0 <= i < |valor| ==> r.numeroInventario.value[i] == Mayuscula(valor[i])
    ensures r == p.(numeroInventario := r.numeroInventario)
  {
    p.(numeroInventario := Some(AMayusculas(valor)))
  }

  /** Setting an already stored code again leaves it as it is. */
  lemma ConNumeroInventarioIdempotente(p: Producto, valor: string)
    ensures ConNumeroInventario(ConNumeroInventario(p, valor), ConNumeroInventario(p, valor).numeroInventario.value)
         == ConNumeroInventario(p, valor)
  {
    AMayusculasIdempotente(valor);
  }

  /** The code generated for a product without one: `INV-<year>-<n>`, the
      year as `format('Y')` prints it (at least four digits) and `n`
      left-padded with zeros to four digits. */
  function CodigoGenerado(anio: nat, n: nat): (r: string)
    ensures |r| >= 13 && r[..4] == "INV-"
  {
    var y := RellenarCeros(Decimal(anio), 4);
    var c := RellenarCeros(Decimal(n), 4);
    assert |y| >= 4 && |c| >= 4;
    "INV-" + y + "-" + c
  }

  /** Within one year the generated code determines the number it was made
      from: padding never truncates, so distinct numbers give distinct codes. */
  lemma {:induction false} CodigoGeneradoInyectivo(anio: nat, m: nat, n: nat)
    requires CodigoGenerado(anio, m) == CodigoGenerado(anio, n)
    ensures m == n
  {
    var y := RellenarCeros(Decimal(anio), 4);
    var k := 4 + |y| + 1;
    var cm := RellenarCeros(Decimal(m), 4);
    var cn := RellenarCeros(Decimal(n), 4);
    assert CodigoGenerado(anio, m)[k..] == cm;
    assert CodigoGenerado(anio, n)[k..] == cn;
    RellenarConservaValor(m, 4);
    RellenarConservaValor(n, 4);
  }

  /** The `numero_inventario` accessor.  A truthy stored value is returned
      as is; a falsy one (`null`, `""`, `"0"`) is replaced by the generated
      code, numbered by the product's id, or by `total + 1` for a product
      with no id yet.  The clock and the table count are parameters. */
  function NumeroInventario(valor: Option<string>, id: Option<nat>, anio: nat, total: nat): (r: string)
    ensures !EsVacio(valor) ==> r == valor.value
    ensures EsVacio(valor) && id.Some? ==> r == CodigoGenerado(anio, id.value)
    ensures EsVacio(valor) && id.None? ==> r == CodigoGenerado(anio, total + 1)
    ensures r != "" && r != "0"
  {
    if !EsVacio(valor) then valor.value
    else
      var n := match id case Some(i) => i case None => total + 1;
      CodigoGenerado(anio, n)
  }

  /** Two stored products without a code of their own read back distinct
      codes in the same year. */
  lemma NumerosGeneradosDistintos(p: Producto, q: Producto, anio: nat, total: nat)
    requires p.id != q.id
    requires EsVacio(p.numeroInventario) && EsVacio(q.numeroInventario)
    ensures NumeroInventario(p.numeroInventario, Some(p.id), anio, total)
         != NumeroInventario(q.numeroInventario, Some(q.id), anio, total)
  {
    if CodigoGenerado(anio, p.id) == CodigoGenerado(anio, q.id) {
      CodigoGeneradoInyectivo(anio, p.id, q.id);
    }
  }

  /** `actualizarStock`: the administrative override of `cantidad`.  The
      state check runs first and is skipped when forced; a negative amount
      is refused even when forced.  No movement is recorded. */
  function ActualizarStock(p: Producto, nuevaCantidad: int, forzar: bool): (r: Result<Producto>)
    ensures !forzar && !PermiteMovimientos(p.estado) ==> r == Failure(Runtime(EstadoSinMovimientos))
    ensures (forzar || PermiteMovimientos(p.estado)) && nuevaCantidad < 0 ==>
              r == Failure(InvalidArgument(CantidadNegativa))
    ensures r.Success? <==> (forzar || PermiteMovimientos(p.estado)) && nuevaCantidad >= 0
    ensures r.Success? ==> r.value.cantidad == nuevaCantidad && r.value.cantidad >= 0
    ensures r.Success? ==> r.value == p.(cantidad := r.value.cantidad)
  {
    if !forzar && !PermiteMovimientos(p.estado) then Failure(Runtime(EstadoSinMovimientos))
    else if nuevaCantidad < 0 then Failure(InvalidArgument(CantidadNegativa))
    else Success(p.(cantidad := nuevaCantidad))
  }

  /** The override sets rather than adds: repeating it changes nothing, and
      the stock it started from does not matter. */
  lemma ActualizarStockIdempotente(p: Producto, n: int, forzar: bool, previa: int)
    ensures ActualizarStock(p, n, forzar).Success? ==>
              ActualizarStock(ActualizarStock(p, n, forzar).value, n, forzar) == ActualizarStock(p, n, forzar)
    ensures ActualizarStock(p.(cantidad := previa), n, forzar) == ActualizarStock(p, n, forzar)
  {
  }

  /** `cambiarEstado`: a guarded transition that changes the state and
      nothing else. */
  function CambiarEstado(p: Producto, nuevo: ProductoEstado): (r: Result<Producto>)
    ensures r.Success? <==> PuedeTransicionarA(p.estado, nuevo)
    ensures r.Failure? ==> r.error == Runtime(TransicionNoPermitida)
    ensures r.Success? ==> r.value.estado == nuevo && r.value == p.(estado := nuevo)
    ensures r.Success? ==> r.value != p
  {
    if PuedeTransicionarA(p.estado, nuevo) then Success(p.(estado := nuevo)) else Failure(Runtime(TransicionNoPermitida))
  }

  /** A successful state change cannot be repeated, and a decommissioned
      product never changes state again. */
  lemma CambiarEstadoNoRepetible(p: Producto, nuevo: ProductoEstado, otro: ProductoEstado)
    ensures CambiarEstado(p, nuevo).Success? ==> CambiarEstado(CambiarEstado(p, nuevo).value, nuevo).Failure?
    ensures EsEstadoFinal(p.estado) ==> CambiarEstado(p, otro).Failure?
  {
  }

  /** `estaDisponible`: the state alone decides, whatever the stock.  An
      available product admits movements and is not decommissioned. */
  predicate EstaDisponible(p: Producto)
    ensures EstaDisponible(p) ==> PermiteMovimientos(p.estado) && !EsEstadoFinal(p.estado)
  {
    p.estado == Disponible
  }

  /** Availability ignores stock, and agrees with the state's own "loan"
      policy. */
  lemma EstaDisponibleIgnoraCantidad(p: Producto, n: int)
    ensures EstaDisponible(p.(cantidad := n)) == EstaDisponible(p)
    ensures EstaDisponible(p) == EsDisponiblePara(p.estado, "prestamo")
  {
  }

  /** `estaDisponiblePara($accion)`. */
  function EstaDisponiblePara(p: Producto, accion: string): (r: bool)
    ensures accion == "venta" ==> (r <==> p.estado == Disponible || p.estado == Reservado)
    ensures accion == "movimiento" ==> (r <==> PermiteMovimientos(p.estado))
    ensures accion != "venta" && accion != "movimiento" ==> (r <==> EstaDisponible(p))
    ensures r ==> PermiteMovimientos(p.estado)
  {
    if accion == "venta" then p.estado in [Disponible, Reservado]
    else if accion == "movimiento" then PermiteMovimientos(p.estado)
    else EstaDisponible(p)
  }

  /** The product-level and state-level policies agree on every action
      except "movimiento", "mantenimiento" and "reporte", where the product
      falls back to plain availability or to the movement policy. */
  lemma DisponibilidadCoincide(p: Producto, accion: string)
    requires accion !in ["movimiento", "mantenimiento", "reporte"]
    ensures EstaDisponiblePara(p, accion) == EsDisponiblePara(p.estado, accion)
  {
  }
}

=== FILE: producto_controller.dfy ===
/** The decision logic of the product endpoints: creation with a default
    stock, the guarded edit, the state change with an optional stock
    adjustment, deletion refused for decommissioned products, restoration,
    and the low-stock alert shown with a product. */
module ProductoControl {
  import opened Base
  import opened Texto
  import opened Estados
  import opened Productos
  import opened Movimientos
  import opened Inventario
  import Libro

  /** `config('productos.stock_minimo', 5)`: the configured value and the
      fallback are both 5. */
  const StockMinimo: int := 5

  /** The form fields `store` and `update` read (the update form extends
      the creation form's rules). */
  datatype ProductoRequest = ProductoRequest(
    numeroSerie: Option<string>,
    nombre: string,
    descripcion: Option<string>,
    cantidad: Option<int>,
    modelo: Option<string>,
    ubicacion: Option<string>,
    estado: string,
    categoriaId: Option<nat>,
    marcaId: Option<nat>,
    metadata: Option<string>)

  /** The bounds the form request has enforced before the controller runs:
      an optional non-negative integer `cantidad` and a known state token. */
  predicate ProductoRequestValido(req: ProductoRequest) {
    && (req.cantidad.Some? ==> req.cantidad.value >= 0)
    && req.estado in Values()
  }

  /** `processMetadata`: an empty payload (`null`, `""`, `"0"`) gives
      `null`; otherwise the JSON decoding, its array check and the removal
      of empty entries, given here as `decodificar`. */
  function ProcesarMetadata(raw: Option<string>, decodificar: string -> Option<Metadata>): (r: Option<Metadata>)
    ensures EsVacio(raw) ==> r.None?
    ensures !EsVacio(raw) ==> r == decodificar(raw.value)
  {
    if EsVacio(raw) then None else decodificar(raw.value)
  }

  /** `store`: creates a product in the requested state; the stock defaults
      to 0 when the form leaves it out, and no inventory code is stored. */
  function Store(req: ProductoRequest, id: nat, decodificar: string -> Option<Metadata>): (r: Result<Producto>)
    requires ProductoRequestValido(req)
    ensures r.Success?
    ensures req.cantidad.None? ==> r.value.cantidad == 0
    ensures req.cantidad.Some? ==> r.value.cantidad == req.cantidad.value
    ensures r.value.cantidad >= 0
    ensures Estados.Value(r.value.estado) == req.estado
    ensures r.value.id == id && r.value.numeroInventario.None? && !r.value.eliminado
    ensures r.value.nombre == req.nombre && r.value.numeroSerie == req.numeroSerie
  {
    match Estados.TryFrom(req.estado)
    case None => Failure(ValueError)
    case Some(e) =>
      var cantidad := match req.cantidad case Some(c) => c case None => 0;
      Success(Producto(
        id, req.numeroSerie, None, req.nombre, req.descripcion, cantidad, req.modelo, req.ubicacion,
        e, req.categoriaId, req.marcaId, ProcesarMetadata(req.metadata, decodificar), false))
  }

  /** A created product enters the stored state balanced: no movement
      refers to it yet, so its opening stock is the stock it was created
      with.  And since no code is stored, it reads back the code generated
      from its id. */
  lemma StoreAbreLibro(
    a: Libro.Almacen, inicial: map<nat, int>, req: ProductoRequest, id: nat,
    decodificar: string -> Option<Metadata>, anio: nat, total: nat)
    requires ProductoRequestValido(req)
    requires Libro.BienFormado(a) && Libro.Cuadra(a, inicial)
    requires id !in a.productos
    ensures var p := Store(req, id, decodificar).value;
            var a' := a.(productos := a.productos[id := p]);
            Libro.BienFormado(a') && Libro.Cuadra(a', inicial[id := p.cantidad])
    ensures NumeroInventario(Store(req, id, decodificar).value.numeroInventario, Some(id), anio, total)
         == CodigoGenerado(anio, id)
  {
    Libro.SaldoSinMovimientos(a.movimientos, id);
  }

  /** `update`: route binding skips soft-deleted products, so a deleted one
      is not found (404) before the body runs.  Otherwise the requested state
      must be reachable from the current one in one legal transition; the
      descriptive fields and the state are then rewritten.  Stock, serial
      number and inventory code are never touched. */
  function Update(p: Producto, req: ProductoRequest, decodificar: string -> Option<Metadata>): (r: Result<Producto>)
    requires ProductoRequestValido(req)
    ensures Estados.TryFrom(req.estado).Some?
    ensures p.eliminado ==> r == Failure(NoEncontrado)
    ensures r.Success? <==> !p.eliminado && PuedeTransicionarA(p.estado, Estados.TryFrom(req.estado).value)
    ensures r.Failure? && !p.eliminado ==> r.error == Runtime(TransicionNoPermitida)
    // resubmitting the current state is always refused: no state lists itself
    ensures req.estado == Estados.Value(p.estado) ==> r.Failure?
    ensures r.Success? ==> Estados.Value(r.value.estado) == req.estado
    ensures r.Success? ==>
              && r.value.cantidad == p.cantidad
              && r.value.numeroSerie == p.numeroSerie
              && r.value.numeroInventario == p.numeroInventario
              && r.value.id == p.id && r.value.eliminado == p.eliminado
    ensures r.Success? ==>
              && r.value.nombre == req.nombre && r.value.descripcion == req.descripcion
              && r.value.modelo == req.modelo && r.value.ubicacion == req.ubicacion
              && r.value.categoriaId == req.categoriaId && r.value.marcaId == req.marcaId
  {
    TryFromValue(p.estado);
    if p.eliminado then Failure(NoEncontrado)
    else
    match Estados.TryFrom(req.estado)
    case None => Failure(ValueError)
    case Some(nuevo) =>
      if !PuedeTransicionarA(p.estado, nuevo) then Failure(Runtime(TransicionNoPermitida))
      else
        Success(p.(
          nombre := req.nombre, descripcion := req.descripcion, modelo := req.modelo,
          ubicacion := req.ubicacion, estado := nuevo, categoriaId := req.categoriaId,
          marcaId := req.marcaId, metadata := ProcesarMetadata(req.metadata, decodificar)))
  }

  /** The fields `cambiarEstado` validates. */
  datatype CambioRequest = CambioRequest(estado: string, motivo: Option<string>, cantidad: Option<int>)

  /** `cambiarEstado`'s rules: a known state token, an optional reason of at
      most 255 characters, and, when present, an integer amount of at least 0. */
  predicate CambioRequestValido(req: CambioRequest) {
    && req.estado in Values()
    && (req.motivo.Some? ==> |req.motivo.value| <= 255)
    && (req.cantidad.Some? ==> req.cantidad.value >= 0)
  }

  /** What a successful state change leaves: the product, and the movement
      of the accompanying adjustment when one was made. */
  datatype CambioEstado = CambioEstado(producto: Producto, movimiento: Option<Movimiento>)

  /** The reason recorded with the adjustment.  It is built after the state
      has already changed, so both labels name the new state. */
  function MotivoCambio(p: Producto, nuevo: ProductoEstado, motivo: string): string {
    "Cambio de estado: " + Label(p.estado) + " → " + Label(nuevo) + ". " + motivo
  }

  /** The recorded reason names the change and ends with the reason the
      user gave, unaltered. */
  lemma MotivoCambioConservaMotivo(p: Producto, nuevo: ProductoEstado, motivo: string)
    ensures |MotivoCambio(p, nuevo, motivo)| >= 18 + |motivo|
    ensures MotivoCambio(p, nuevo, motivo)[..18] == "Cambio de estado: "
    ensures MotivoCambio(p, nuevo, motivo)[|MotivoCambio(p, nuevo, motivo)| - |motivo|..] == motivo
  {
  }

  /** The length of the `motivo` column of the movements table. */
  const LargoColumnaMotivo: nat := 255

  /** Validation bounds only the user's part of the reason by the column's
      length, and the recorded reason adds its prefix to that part, so a
      reason the validation accepts can still be too long for the column. */
  lemma MotivoCambioExcedeColumna(p: Producto, nuevo: ProductoEstado, motivo: string)
    requires LargoColumnaMotivo - 18 < |motivo| <= LargoColumnaMotivo
    ensures |MotivoCambio(p, nuevo, motivo)| > LargoColumnaMotivo
  {
    MotivoCambioConservaMotivo(p, nuevo, motivo);
  }

  /** `cambiarEstado` with the transaction open: a soft-deleted product is
      not found (404), since route binding skips it.  Otherwise, once the
      request is validated, change the state and, only when a non-empty
      reason was given, call the service's adjustment method named `metodo`
      with the requested amount (0 when absent).  If the adjustment fails,
      the state change is not kept either. */
  function CambiarEstadoLlamando(p: Producto, req: CambioRequest, metodo: string): (r: Result<CambioEstado>)
    requires !MismoNombre(metodo, "generarInformeStock")
    ensures p.eliminado ==> r == Failure(NoEncontrado)
    ensures !p.eliminado && !CambioRequestValido(req) ==> r == Failure(Validation)
    // the transition is checked first, so an illegal one never reaches the adjustment
    ensures !p.eliminado && CambioRequestValido(req) && !PuedeTransicionarA(p.estado, Estados.TryFrom(req.estado).value) ==>
              r == Failure(Runtime(TransicionNoPermitida))
    ensures r.Success? ==> Estados.Value(r.value.producto.estado) == req.estado
    ensures r.Success? ==> PuedeTransicionarA(p.estado, r.value.producto.estado)
    ensures r.Success? && EsVacio(req.motivo) ==>
              r.value.movimiento.None? && r.value.producto == p.(estado := r.value.producto.estado)
    // naming a method the service does not define fails every change that carries a reason
    ensures !MismoNombre(metodo, "ajustarInventario") && !EsVacio(req.motivo) ==> r.Failure?
  {
    if p.eliminado then Failure(NoEncontrado)
    else if !CambioRequestValido(req) then Failure(Validation)
    else
      match Estados.TryFrom(req.estado)
      case None => Failure(ValueError)
      case Some(nuevo) =>
        var cambiado :- Productos.CambiarEstado(p, nuevo);
        if EsVacio(req.motivo) then Success(CambioEstado(cambiado, None))
        else
          var delta := match req.cantidad case Some(c) => c case None => 0;
          var reg :- LlamarAjuste(metodo, cambiado, delta, MotivoCambio(cambiado, nuevo, req.motivo.value));
          Success(CambioEstado(reg.producto, Some(reg.movimiento)))
  }

  /** `cambiarEstado` as intended: the transaction opens, and the adjustment
      is the one the service defines.  A soft-deleted product is not found. */
  function CambiarEstado(p: Producto, req: CambioRequest): (r: Result<CambioEstado>)
    ensures p.eliminado ==> r == Failure(NoEncontrado)
    ensures !p.eliminado && !CambioRequestValido(req) ==> r == Failure(Validation)
    ensures !p.eliminado && CambioRequestValido(req) && !PuedeTransicionarA(p.estado, Estados.TryFrom(req.estado).value) ==>
              r == Failure(Runtime(TransicionNoPermitida))
    // a legal change to a live product succeeds exactly when it needs no
    // adjustment or the amount is positive
    ensures !p.eliminado && CambioRequestValido(req) && PuedeTransicionarA(p.estado, Estados.TryFrom(req.estado).value) ==>
              (r.Success? <==> EsVacio(req.motivo) || (req.cantidad.Some? && req.cantidad.value > 0))
    ensures r.Success? ==> Estados.Value(r.value.producto.estado) == req.estado
    ensures r.Success? ==> PuedeTransicionarA(p.estado, r.value.producto.estado)
    ensures r.Success? && EsVacio(req.motivo) ==>
              r.value.movimiento.None? && r.value.producto == p.(estado := r.value.producto.estado)
    // with a reason but no positive amount the adjustment is an outward
    // movement of 0, which is refused, and the whole change is discarded
    ensures CambioRequestValido(req) && !EsVacio(req.motivo) && (req.cantidad.None? || req.cantidad.value == 0) ==>
              r.Failure?
    // the adjustment is never a decrease: an inward movement of the
    // requested amount, by which the stock rises
    ensures r.Success? && !EsVacio(req.motivo) ==>
              && r.value.movimiento.Some? && r.value.movimiento.value.tipo == Tipos.Entrada
              && req.cantidad.Some? && r.value.movimiento.value.cantidad == req.cantidad.value > 0
              && r.value.producto == p.(estado := r.value.producto.estado, cantidad := p.cantidad + req.cantidad.value)
    ensures r.Success? ==> r.value.producto.cantidad >= p.cantidad
  {
    if p.eliminado then Failure(NoEncontrado)
    else if !CambioRequestValido(req) then Failure(Validation)
    else
      match Estados.TryFrom(req.estado)
      case None => Failure(ValueError)
      case Some(nuevo) =>
        var cambiado :- Productos.CambiarEstado(p, nuevo);
        if EsVacio(req.motivo) then Success(CambioEstado(cambiado, None))
        else
          var delta := match req.cantidad case Some(c) => c case None => 0;
          var reg :- AjustarInventario(cambiado, delta, MotivoCambio(cambiado, nuevo, req.motivo.value));
          Success(CambioEstado(reg.producto, Some(reg.movimiento)))
  }

  /** Calling the adjustment by the name the service defines, in any ASCII
      case, is the intended endpoint. */
  lemma CambiarEstadoPorNombre(p: Producto, req: CambioRequest, metodo: string)
    requires MismoNombre(metodo, "ajustarInventario")
    ensures CambiarEstadoLlamando(p, req, metodo) == CambiarEstado(p, req)
  {
    assert !MismoNombre(metodo, "generarInformeStock") by {
      assert |AMayusculas(metodo)| == |AMayusculas("ajustarInventario")| != |AMayusculas("generarInformeStock")|;
    }
    if CambioRequestValido(req) && Estados.TryFrom(req.estado).Some? && !EsVacio(req.motivo) {
      var nuevo := Estados.TryFrom(req.estado).value;
      var cambiado := Productos.CambiarEstado(p, nuevo);
      if cambiado.Success? {
        var delta := match req.cantidad case Some(c) => c case None => 0;
        var motivo := MotivoCambio(cambiado.value, nuevo, req.motivo.value);
        assert LlamarAjuste(metodo, cambiado.value, delta, motivo) == AjustarInventario(cambiado.value, delta, motivo);
      }
    }
  }

  /** `cambiarEstado` as written: the controller does not import the `DB`
      facade, so `DB::transaction` resolves to a class in the controller's
      own namespace that does not exist.  Every request for a live product
      that passes validation ends in an `Error` before anything is written;
      a soft-deleted product is not found, as in the intended endpoint. */
  function CambiarEstadoComoEscrito(p: Producto, req: CambioRequest): (r: Result<CambioEstado>)
    ensures r.Failure?
    ensures p.eliminado ==> r.error == NoEncontrado
    ensures !p.eliminado && CambioRequestValido(req) ==> r.error == ErrorPhp(ClaseInexistente)
    ensures !p.eliminado && !CambioRequestValido(req) ==> r.error == Validation
  {
    if p.eliminado then Failure(NoEncontrado)
    else if !CambioRequestValido(req) then Failure(Validation) else Failure(ErrorPhp(ClaseInexistente))
  }

  /** As written no state ever changes through this endpoint, while the
      intended one performs every legal change without a reason. */
  lemma CambiarEstadoComoEscritoNuncaCambia(p: Producto, nuevo: ProductoEstado, req: CambioRequest)
    requires !p.eliminado
    requires CambioRequestValido(req) && EsVacio(req.motivo)
    requires req.estado == Estados.Value(nuevo) && PuedeTransicionarA(p.estado, nuevo)
    ensures CambiarEstadoComoEscrito(p, req).Failure?
    ensures CambiarEstado(p, req).Success?
    ensures CambiarEstado(p, req).value.producto.estado == nuevo != p.estado
  {
    TryFromValue(nuevo);
  }

  /** With the facade imported, the transaction still calls `ajustarStock`,
      which the service does not define: changes without a reason behave as
      intended, and every legal change with a reason and a positive amount
      fails where the intended one succeeds. */
  lemma AjusteConNombreInexistente(p: Producto, req: CambioRequest)
    ensures EsVacio(req.motivo) ==> CambiarEstadoLlamando(p, req, "ajustarStock") == CambiarEstado(p, req)
    ensures !p.eliminado && CambioRequestValido(req) && PuedeTransicionarA(p.estado, Estados.TryFrom(req.estado).value)
            && !EsVacio(req.motivo) && req.cantidad.Some? && req.cantidad.value > 0 ==>
              && CambiarEstadoLlamando(p, req, "ajustarStock") == Failure(ErrorPhp(MetodoInexistente))
              && CambiarEstado(p, req).Success?
  {
    assert !MismoNombre("ajustarStock", "ajustarInventario") by {
      assert |AMayusculas("ajustarStock")| != |AMayusculas("ajustarInventario")|;
    }
    assert !MismoNombre("ajustarStock", "generarInformeStock") by {
      assert |AMayusculas("ajustarStock")| != |AMayusculas("generarInformeStock")|;
    }
    if !p.eliminado && CambioRequestValido(req) && Estados.TryFrom(req.estado).Some? {
      var nuevo := Estados.TryFrom(req.estado).value;
      var cambiado := Productos.CambiarEstado(p, nuevo);
      if cambiado.Success? && !EsVacio(req.motivo) {
        var delta := match req.cantidad case Some(c) => c case None => 0;
        var motivo := MotivoCambio(cambiado.value, nuevo, req.motivo.value);
        assert LlamarAjuste("ajustarStock", cambiado.value, delta, motivo) == Failure(ErrorPhp(MetodoInexistente));
      }
    }
  }

  /** `destroy`: route binding skips soft-deleted products, so deleting one
      twice is not found (404).  A live product is refused in the final
      state and soft-deleted otherwise.  Whether the product has movements
      plays no part. */
  function Destroy(p: Producto): (r: Result<Producto>)
    ensures r.Failure? <==> p.eliminado || EsEstadoFinal(p.estado)
    ensures p.eliminado ==> r.error == NoEncontrado
    ensures r.Failure? && !p.eliminado ==> r.error == Runtime(EstadoFinal)
    ensures r.Success? ==> r.value == p.(eliminado := true)
  {
    if p.eliminado then Failure(NoEncontrado)
    else if EsEstadoFinal(p.estado) then Failure(Runtime(EstadoFinal)) else Success(p.(eliminado := true))
  }

  /** `restore`: looks the product up including soft-deleted ones, so it
      is found either way, and clears the soft-delete marker. */
  function Restore(p: Producto): (r: Producto)
    ensures !r.eliminado && r == p.(eliminado := false)
  {
    p.(eliminado := false)
  }

  /** Deleting and restoring a live product gives it back unchanged; a
      product decommissioned through a state change can no longer be deleted. */
  lemma DestroyRestore(p: Producto, req: CambioRequest)
    ensures !p.eliminado && Destroy(p).Success? ==> Restore(Destroy(p).value) == p
    ensures req.estado == Estados.Value(Baja) && CambiarEstado(p, req).Success? ==>
              Destroy(CambiarEstado(p, req).value.producto).Failure?
  {
  }

  /** Once deleted, a product is out of reach of the bound endpoints:
      deleting it again or changing its state is not found, and only
      `restore`, which looks past the soft delete, brings it back. */
  lemma BorradoNoEncontrado(p: Producto, req: CambioRequest)
    requires Destroy(p).Success?
    ensures Destroy(Destroy(p).value) == Failure(NoEncontrado)
    ensures CambiarEstado(Destroy(p).value, req) == Failure(NoEncontrado)
    ensures Destroy(Restore(Destroy(p).value)).Success?
  {
  }

  /** The alert shown with a product: fewer units than the minimum, which
      is the report's low-stock threshold. */
  predicate StockAlert(p: Producto)
    ensures StockAlert(p) <==> p.cantidad < UmbralBajoStock
  {
    p.cantidad < StockMinimo
  }

  function ContarAlertas(ps: seq<Producto>): nat {
    if ps == [] then 0 else (if StockAlert(ps[0]) then 1 else 0) + ContarAlertas(ps[1..])
  }

  /** The report's low-stock count is the number of live products whose
      page shows the stock alert: both use the same threshold. */
  lemma {:induction false} BajoStockSonAlertas(ps: seq<Producto>)
    ensures GenerarInformeStock(ps).productosBajoStock == ContarAlertas(Vigentes(ps))
  {
    AlertasComoBajoStock(Vigentes(ps));
  }

  lemma {:induction false} AlertasComoBajoStock(ps: seq<Producto>)
    ensures ContarBajoStock(ps) == ContarAlertas(ps)
  {
    if ps != [] {
      AlertasComoBajoStock(ps[1..]);
    }
  }
}

=== FILE: producto_estado.dfy ===
/** The product lifecycle: the six states a product can be in, their wire
    tokens, the fixed transition table and the per-state policies that the
    rest of the application consults. */
module Estados {
  import opened Base

  /** The cases in declaration order; each has a lower-case snake_case token. */
  datatype ProductoEstado =
    | Disponible
    | EnUso
    | Mantenimiento
    | Baja
    | Reservado
    | PendienteRevision

  /** The wire token (`->value`) of a state. */
  function Value(e: ProductoEstado): string {
    match e
    case Disponible => "disponible"
    case EnUso => "en_uso"
    case Mantenimiento => "mantenimiento"
    case Baja => "baja"
    case Reservado => "reservado"
    case PendienteRevision => "pendiente_revision"
  }

  /** The human-readable label; presentation only, used in messages. */
  function Label(e: ProductoEstado): string {
    match e
    case Disponible => "Disponible"
    case EnUso => "En uso"
    case Mantenimiento => "En mantenimiento"
    case Baja => "Dado de baja"
    case Reservado => "Reservado"
    case PendienteRevision => "Pendiente de revisión"
  }

  /** Whether stock movements are allowed in this state: only the three
      states in normal service admit them. */
  predicate PermiteMovimientos(e: ProductoEstado)
    ensures PermiteMovimientos(e) <==> e == Disponible || e == EnUso || e == Reservado
  {
    !(e == Baja || e == Mantenimiento || e == PendienteRevision)
  }

  /** Whether the product may still be modified in this state; every state
      that admits movements admits modifications. */
  predicate PermiteModificaciones(e: ProductoEstado)
    ensures PermiteMovimientos(e) ==> PermiteModificaciones(e)
  {
    e != Baja
  }

  /** BAJA (decommissioned) is the one final state: the one that no longer
      admits modifications. */
  predicate EsEstadoFinal(e: ProductoEstado)
    ensures EsEstadoFinal(e) <==> !PermiteModificaciones(e)
  {
    e == Baja
  }

  /** A state that allows movements also allows modifications; the
      converse fails for MANTENIMIENTO and PENDIENTE_REVISION. */
  lemma MovimientosImplicanModificaciones(e: ProductoEstado)
    ensures PermiteMovimientos(e) ==> PermiteModificaciones(e)
    ensures PermiteModificaciones(e) && !PermiteMovimientos(e) <==> e == Mantenimiento || e == PendienteRevision
    ensures EsEstadoFinal(e) <==> !PermiteModificaciones(e)
  {
  }

  /** The transition table, each row in the order the source lists it. */
  function TransicionesPermitidas(e: ProductoEstado): (r: seq<ProductoEstado>)
    // no state lists itself
    ensures e !in r
    // nothing leads into PENDIENTE_REVISION: it is an entry state only
    ensures PendienteRevision !in r
    // the final state, and only it, has an empty row
    ensures |r| == 0 <==> EsEstadoFinal(e)
    // every other state can be decommissioned in one step ...
    ensures !EsEstadoFinal(e) ==> Baja in r
    // ... and can go back to DISPONIBLE in one step
    ensures !EsEstadoFinal(e) && e != Disponible ==> Disponible in r
    // rows hold no duplicates
    ensures forall i, j :: 0 <= i < j < |r| ==> r[i] != r[j]
  {
    match e
    case Disponible => [EnUso, Reservado, Mantenimiento, Baja]
    case EnUso => [Disponible, Mantenimiento, Baja]
    case Reservado => [Disponible, EnUso, Baja]
    case Mantenimiento => [Disponible, Baja]
    case PendienteRevision => [Disponible, Mantenimiento, Baja]
    case Baja => []
  }

  /** `puedeTransicionarA`: membership in the source state's row.  No state
      moves to itself, and nothing moves into PENDIENTE_REVISION. */
  predicate PuedeTransicionarA(a: ProductoEstado, b: ProductoEstado)
    ensures PuedeTransicionarA(a, b) ==> a != b && b != PendienteRevision
  {
    b in TransicionesPermitidas(a)
  }

  /** The transition relation is irreflexive, never enters
      PENDIENTE_REVISION, never leaves BAJA, and reaches BAJA from every
      other state in one step. */
  lemma PropiedadesDeTransicion(a: ProductoEstado, b: ProductoEstado)
    ensures PuedeTransicionarA(a, b) ==> a != b
    ensures PuedeTransicionarA(a, b) ==> b != PendienteRevision
    ensures EsEstadoFinal(a) ==> !PuedeTransicionarA(a, b)
    ensures !EsEstadoFinal(a) && EsEstadoFinal(b) ==> PuedeTransicionarA(a, b)
  {
  }

  /** A sequence of states each reachable from the previous one in one step. */
  ghost predicate EsCamino(c: seq<ProductoEstado>) {
    forall i :: 0 <= i < |c| - 1 ==> PuedeTransicionarA(c[i], c[i + 1])
  }

  /** Along any run of legal transitions, BAJA can only be the last state,
      and PENDIENTE_REVISION can only be the first. */
  lemma CaminoBajaAlFinal(c: seq<ProductoEstado>, i: nat)
    requires EsCamino(c)
    requires i < |c|
    ensures c[i] == Baja ==> i == |c| - 1
    ensures c[i] == PendienteRevision ==> i == 0
  {
    if i < |c| - 1 {
      assert PuedeTransicionarA(c[i], c[i + 1]);
    }
    if i > 0 {
      assert PuedeTransicionarA(c[i - 1], c[i]);
    }
  }

  /** `esDisponiblePara($contexto)`: the per-context availability policy. */
  function EsDisponiblePara(e: ProductoEstado, contexto: string): (r: bool)
    // no context considers a decommissioned product available
    ensures r ==> !EsEstadoFinal(e)
    // DISPONIBLE is available in every context
    ensures e == Disponible ==> r
    // a product available for sale also admits stock movements
    ensures contexto == "venta" ==> (r ==> PermiteMovimientos(e))
    ensures contexto == "venta" ==> (r <==> e == Disponible || e == Reservado)
    // a loan, like any unrecognised context, demands exactly DISPONIBLE
    ensures contexto == "prestamo" ==> (r <==> e == Disponible)
    ensures contexto == "mantenimiento" ==> (r <==> PermiteModificaciones(e) && e != Mantenimiento)
    // reporting covers exactly the states that are still modifiable
    ensures contexto == "reporte" ==> (r <==> PermiteModificaciones(e))
    ensures contexto !in ["venta", "prestamo", "mantenimiento", "reporte"] ==> (r <==> e == Disponible)
  {
    if contexto == "venta" then e in [Disponible, Reservado]
    else if contexto == "prestamo" then e == Disponible
    else if contexto == "mantenimiento" then e !in [Baja, Mantenimiento]
    else if contexto == "reporte" then !EsEstadoFinal(e)
    else e == Disponible
  }

  /** `cases()`, in declaration order. */
  function Casos(): seq<ProductoEstado> {
    [Disponible, EnUso, Mantenimiento, Baja, Reservado, PendienteRevision]
  }

  /** `values()`: the wire tokens of all cases. */
  function Values(): (r: seq<string>)
    ensures |r| == 6
    ensures forall i, j :: 0 <= i < j < |r| ==> r[i] != r[j]
    ensures forall e: ProductoEstado :: Value(e) in r
  {
    [Value(Disponible), Value(EnUso), Value(Mantenimiento), Value(Baja), Value(Reservado), Value(PendienteRevision)]
  }

  function ValoresActivos(): seq<string> {
    [Value(Disponible), Value(EnUso), Value(Reservado), Value(PendienteRevision)]
  }

  function ValoresInactivos(): seq<string> {
    [Value(Baja), Value(Mantenimiento)]
  }

  /** The active and inactive token lists partition `values()`; the
      inactive ones are exactly BAJA and MANTENIMIENTO, so PENDIENTE_REVISION
      counts as active although it admits no movements. */
  lemma ValoresParticion(v: string, e: ProductoEstado)
    ensures v in Values() <==> v in ValoresActivos() || v in ValoresInactivos()
    ensures !(v in ValoresActivos() && v in ValoresInactivos())
    ensures Value(e) in ValoresInactivos() <==> e == Baja || e == Mantenimiento
    ensures Value(e) in ValoresActivos() ==> !EsEstadoFinal(e)
  {
  }

  /** `tryFrom($value)`: the case whose token is `value`, if any. */
  function TryFrom(s: string): (r: Option<ProductoEstado>)
    ensures r.Some? ==> Value(r.value) == s
    ensures r.None? ==> forall e: ProductoEstado :: Value(e) != s
    ensures r.Some? <==> s in Values()
  {
    if s == "disponible" then Some(Disponible)
    else if s == "en_uso" then Some(EnUso)
    else if s == "mantenimiento" then Some(Mantenimiento)
    else if s == "baja" then Some(Baja)
    else if s == "reservado" then Some(Reservado)
    else if s == "pendiente_revision" then Some(PendienteRevision)
    else None
  }

  /** Parsing a state's own token gives that state back, so tokens are
      pairwise distinct. */
  lemma TryFromValue(e: ProductoEstado)
    ensures TryFrom(Value(e)) == Some(e)
  {
  }

  /** Distinct states have distinct tokens. */
  lemma ValueInyectiva(a: ProductoEstado, b: ProductoEstado)
    ensures Value(a) == Value(b) ==> a == b
  {
    TryFromValue(a);
    TryFromValue(b);
  }

  /** `from($value)`, the built-in backed-enum parse: unknown tokens throw
      a `ValueError`. */
  function From(s: string): (r: Result<ProductoEstado>)
    ensures r.Success? <==> s in Values()
    ensures r.Success? ==> Value(r.value) == s
    ensures r.Failure? ==> r.error == ValueError
  {
    match TryFrom(s)
    case Some(e) => Success(e)
    case None => Failure(ValueError)
  }

  /** `fromValue($value)`: like `from`, but an unknown token throws
      `InvalidArgumentException("Estado inválido: ...")`. */
  function FromValue(s: string): (r: Result<ProductoEstado>)
    ensures r.Success? <==> s in Values()
    ensures r.Success? ==> Value(r.value) == s
    ensures r.Failure? ==> r.error == InvalidArgument(EstadoInvalido)
  {
    match TryFrom(s)
    case Some(e) => Success(e)
    case None => Failure(InvalidArgument(EstadoInvalido))
  }
}

=== FILE: texto.dfy ===
/** The few PHP string behaviours the inventory code leans on: the
    truthiness of a string (`empty($v)`, `$v ?: $default`), `strtoupper`,
    rendering an integer in decimal (`str($n)`, `format('Y')`) and
    `Str::padLeft`. */
module Texto {
  import opened Base

  /** A PHP string value that is falsy: `null`, `""` and `"0"`.  This is
      what `empty($v)` tests and what `$v ?: $default` replaces. */
  predicate EsVacio(v: Option<string>) {
    match v
    case None => true
    case Some(s) => s == "" || s == "0"
  }

  predicate EsMinuscula(c: char) {
    'a' <= c <= 'z'
  }

  /** `strtoupper` on one character.  Since PHP 8.2 it is locale
      independent and touches only the ASCII letters a-z. */
  function Mayuscula(c: char): (r: char)
    ensures !EsMinuscula(r)
    ensures EsMinuscula(c) ==> 'A' <= r <= 'Z' && r as int + 32 == c as int
    ensures !EsMinuscula(c) ==> r == c
  {
    if EsMinuscula(c) then (c as int - 32) as char else c
  }

  /** `strtoupper($s)`: same length, each letter upper-cased in place. */
  function AMayusculas(s: string): (r: string)
    ensures |r| == |s|
    ensures forall i :: 0 <= i < |s| ==> r[i] == Mayuscula(s[i])
    ensures forall i :: 0 <= i < |r| ==> !EsMinuscula(r[i])
  {
    seq(|s|, i requires 0 <= i < |s| => Mayuscula(s[i]))
  }

  /** PHP looks up function and method names without regard to ASCII case. */
  predicate MismoNombre(a: string, b: string) {
    AMayusculas(a) == AMayusculas(b)
  }

  /** Upper-casing twice is upper-casing once. */
  lemma AMayusculasIdempotente(s: string)
    ensures AMayusculas(AMayusculas(s)) == AMayusculas(s)
  {
    var u := AMayusculas(s);
    assert forall i :: 0 <= i < |u| ==> Mayuscula(u[i]) == u[i];
  }

  predicate EsDigito(c: char) {
    '0' <= c <= '9'
  }

  predicate SoloDigitos(s: string) {
    forall i :: 0 <= i < |s| ==> EsDigito(s[i])
  }

  function Digito(d: nat): (c: char)
    requires d < 10
    ensures EsDigito(c)
  {
    ('0' as int + d) as char
  }

  function ValorDigito(c: char): (d: nat)
    requires EsDigito(c)
    ensures d < 10
  {
    c as int - '0' as int
  }

  /** The decimal rendering of `n`, as PHP's string conversion of an
      integer gives it: at least one digit and no leading zero. */
  function Decimal(n: nat): (s: string)
    ensures |s| >= 1 && SoloDigitos(s)
    ensures s[0] == '0' ==> n == 0
  {
    if n < 10 then [Digito(n)] else Decimal(n / 10) + [Digito(n % 10)]
  }

  /** Reads a string of digits back as a number; an independent reference
      for `Decimal`, which leading zeros do not affect. */
  function ValorDecimal(s: string): nat
    requires SoloDigitos(s)
  {
    if s == [] then 0 else ValorDecimal(s[..|s| - 1]) * 10 + ValorDigito(s[|s| - 1])
  }

  lemma {:induction false} ValorDecimalDeDecimal(n: nat)
    ensures ValorDecimal(Decimal(n)) == n
  {
    if n >= 10 {
      var s := Decimal(n);
      assert s[..|s| - 1] == Decimal(n / 10);
      ValorDecimalDeDecimal(n / 10);
    }
  }

  function Ceros(k: nat): (z: string)
    ensures |z| == k && SoloDigitos(z)
    ensures forall i :: 0 <= i < k ==> z[i] == '0'
  {
    seq(k, i => '0')
  }

  lemma {:induction false} ValorDeCeros(k: nat)
    ensures ValorDecimal(Ceros(k)) == 0
  {
    if k > 0 {
      assert Ceros(k)[..k - 1] == Ceros(k - 1);
      ValorDeCeros(k - 1);
    }
  }

  lemma {:induction false} CerosNoCambianValor(k: nat, s: string)
    requires SoloDigitos(s)
    ensures SoloDigitos(Ceros(k) + s)
    ensures ValorDecimal(Ceros(k) + s) == ValorDecimal(s)
  {
    var t := Ceros(k) + s;
    assert SoloDigitos(t);
    if s == [] {
      assert t == Ceros(k);
      ValorDeCeros(k);
    } else {
      assert t[..|t| - 1] == Ceros(k) + s[..|s| - 1];
      CerosNoCambianValor(k, s[..|s| - 1]);
    }
  }

  /** `Str::padLeft($s, $ancho, '0')`: zeros are prepended up to `ancho`
      characters; a longer string is returned whole, never truncated. */
  function RellenarCeros(s: string, ancho: nat): (r: string)
    ensures |r| == if |s| >= ancho then |s| else ancho
    ensures r[|r| - |s|..] == s
    ensures forall i :: 0 <= i < |r| - |s| ==> r[i] == '0'
  {
    if |s| >= ancho then s else Ceros(ancho - |s|) + s
  }

  /** Zero padding a decimal rendering keeps its value. */
  lemma {:induction false} RellenarConservaValor(n: nat, ancho: nat)
    ensures SoloDigitos(RellenarCeros(Decimal(n), ancho))
    ensures ValorDecimal(RellenarCeros(Decimal(n), ancho)) == n
  {
    var s := Decimal(n);
    ValorDecimalDeDecimal(n);
    if |s| < ancho {
      assert RellenarCeros(s, ancho) == Ceros(ancho - |s|) + s;
      CerosNoCambianValor(ancho - |s|, s);
    } else {
      assert RellenarCeros(s, ancho) == s;
    }
  }
}

=== FILE: tipo_movimiento.dfy ===
/** The direction of a stock movement: inward (ENTRADA) or outward (SALIDA).
    The amount of a movement is always positive; its sign is carried here. */
module Tipos {
  import opened Base

  datatype TipoMovimiento = Entrada | Salida

  /** The wire token (`->value`) of a movement type. */
  function Value(t: TipoMovimiento): (s: string)
    ensures s == "entrada" || s == "salida"
  {
    match t
    case Entrada => "entrada"
    case Salida => "salida"
  }

  /** `icono()`: an arrow pointing the way stock moves. */
  function Icono(t: TipoMovimiento): (s: string)
    ensures |s| == 1
    ensures (s == "↑") <==> t == Entrada
  {
    match t
    case Entrada => "↑"
    case Salida => "↓"
  }

  /** `tryFrom($value)`: the movement type with token `s`, if any. */
  function TryFrom(s: string): (r: Option<TipoMovimiento>)
    ensures r.Some? <==> s == "entrada" || s == "salida"
    ensures r.Some? ==> Value(r.value) == s
  {
    if s == "entrada" then Some(Entrada)
    else if s == "salida" then Some(Salida)
    else None
  }

  /** `from($value)`: unknown tokens throw a `ValueError`. */
  function From(s: string): (r: Result<TipoMovimiento>)
    ensures r.Success? <==> s == "entrada" || s == "salida"
    ensures r.Success? ==> Value(r.value) == s
    ensures r.Failure? ==> r.error == ValueError
  {
    match TryFrom(s)
    case Some(t) => Success(t)
    case None => Failure(ValueError)
  }

  /** Parsing a type's own token gives it back; the two tokens differ, and
      there are no other types. */
  lemma FromValue(t: TipoMovimiento)
    ensures From(Value(t)) == Success(t)
    ensures Value(Entrada) != Value(Salida)
    ensures t == Entrada || t == Salida
  {
  }
}
